=== FILE: README.md ===
# Pix "copy and paste" payload builder

This project models, in Dafny, how the DETRAN payment API builds a Pix
payment code (a BR Code, the text behind a Pix QR code). The builder is
`gerarPixComChaveReal` in `public/api-detran/index.js`. It takes an amount
as typed by a user (`"R$ 1.234,56"`), a Pix key and an optional vehicle
reference (RENAVAM). It:

- cleans the amount and reads it with `parseFloat`;
- rejects an amount that is not a positive number, then a key that is
  missing or shorter than eleven characters;
- writes nine ID–Length–Value data objects in a fixed order;
- closes the code with a CRC object computed by `calcularCRC16`.

The ID–Length–Value format is the one of section 3.1 of the EMV QR Code
Specification for Payment Systems (merchant-presented mode).

Modules:

- `Outcomes`: `Option` and `Result`.
- `Strings`: the JavaScript string and number built-ins the builder uses.
  - `toString` in bases 10 and 16;
  - `padStart`;
  - the first-match `replace` and the global `replace(/\./g, '')`;
  - `trim`;
  - `toUpperCase` on hexadecimal digits.
- `Tlv`: one data object (`Field`), a run of them (`Serialize`), and a
  reader (`Parse`). The two are proved to be inverses in both directions.
- `Crc16`: CRC-16/CCITT-FALSE as a 16-bit register (`Register`), and the
  builder's loop as JavaScript runs it on 32-bit integers (`JsRegister`).
  The two are proved to agree after the final `& 0xFFFF`.
- `Amount`: the amount clean-up and `parseFloat`. Amounts are exact
  decimals and `toFixed(2)` is rounding half up to integer cents.
- `Pix`: the payload. There are two versions:
  - `PayloadAsWritten` follows the builder character by character;
  - `GeneratePix` is the builder with the two defects under "Findings"
    corrected.

  The reader-facing properties are proved about `GeneratePix`, and
  `AsWrittenAgrees` shows the two versions agree whenever the corrected
  one succeeds.

The payee name and city are parameters. The builder always passes
`DETRAN PARANA` and `CURITIBA` (`MerchantName`, `MerchantCity`).

The builder throws one error for a key that is missing and for one that
is too short (`index.js:70-71`), and `PixError.InvalidKey` is that one
error. The route that calls the builder answers a missing key with its
own code, `CHAVE_NAO_CONFIGURADA`, before the builder runs
(`index.js:452-458`). That route is not part of this model.

## Model

| member | source | states |
|---|---|---|
| Strings.LengthPrefix | public/api-detran/index.js:82 | `n.toString().padStart(2, '0')` spells `n` in decimal. It has exactly two characters if and only if `n <= 99`, and three or more above that: padding never truncates. |
| Strings.LengthPrefixPadded | public/api-detran/index.js:82 | The length prefix is `padStart(2, '0')` applied to the decimal spelling of the length. |
| Strings.DecimalString | public/api-detran/index.js:82 | `Number.prototype.toString()` of a non-negative integer: digits denoting `n`, with no leading zero, one digit below 10, at most two below 100. |
| Strings.PadStart | public/api-detran/index.js:82 | `padStart` keeps the text as a suffix, fills only on the left with the fill character, and never shortens. |
| Strings.ReplaceFirst | public/api-detran/index.js:53-56 | A string `replace` introduces no character that is neither in the text nor in the replacement, and leaves a text without the pattern unchanged. |
| Strings.ReplaceFirstAt | public/api-detran/index.js:53-56 | When the first occurrence of the pattern is the one between `a` and `b`, `replace` turns `a + pattern + b` into `a + replacement + b`. |
| Strings.RemoveAll | public/api-detran/index.js:55 | `replace(/\./g, '')` leaves no point, keeps every other character, and changes nothing when there is no point. |
| Strings.RemoveAllAppend | public/api-detran/index.js:55 | Deleting every occurrence of a character distributes over concatenation. |
| Strings.Trim | public/api-detran/index.js:57 | `trim` keeps a window of the text with only white space before and after it. The window has no white space at either end, and a text without white space is left unchanged. |
| Strings.IndexOf | public/api-detran/index.js:53-56 | The match a string `replace` acts on is the first occurrence of the pattern. None means the pattern occurs nowhere. |
| Strings.HexString | public/api-detran/index.js:149 | `toString(16)` is at least one lower-case hexadecimal digit, and at most four below 0x10000 (one below 0x10, two below 0x100, three below 0x1000). |
| Strings.UpperCaseEach | public/api-detran/index.js:149 | `toUpperCase` changes each character in place and nothing else. |
| Strings.UpperHex4 | public/api-detran/index.js:149 | `toString(16).toUpperCase().padStart(4, '0')` of a 16-bit value is four upper-case hexadecimal digits whose value is the number. |
| Strings.UpperHexString | public/api-detran/index.js:149 | Upper-casing the base-16 spelling gives upper-case hexadecimal digits with the same value. |
| Tlv.Field | public/api-detran/index.js:82 | A data object is its two-digit ID, a two-digit length equal to the value's length, and the value. |
| Tlv.ParseSerialize | public/api-detran/index.js:78-117 | Data objects written one after another read back as exactly those objects. |
| Tlv.SerializeParse | public/api-detran/index.js:78-117 | Every text that reads as data objects is exactly their serialization, and each of them is encodable. |
| Crc16.JsStep | public/api-detran/index.js:140-146 | One pass of the inner loop on the unmasked 32-bit register gives, on the low 16 bits, one step of the 16-bit CRC. |
| Crc16.JsFeed | public/api-detran/index.js:139-146 | One character of the JavaScript loop, reduced to 16 bits, is one character of the 16-bit CRC. |
| Crc16.JsRegister | public/api-detran/index.js:137-148 | The JavaScript loop, which never masks the register inside the loop, gives after `& 0xFFFF` the 16-bit CRC-16/CCITT-FALSE register. |
| Crc16.JsStepsLow16 | public/api-detran/index.js:140-146 | The eight unmasked shift-and-XOR steps agree with the 16-bit steps on the low 16 bits. |
| Crc16.CrcText | public/api-detran/index.js:136-150 | The checksum text is always four upper-case hexadecimal digits, and their value is the CRC of the data. |
| Crc16.CrcTextDistinguishes | public/api-detran/index.js:148-149 | Different CRC registers are spelled by different checksum texts. |
| Crc16.CheckValue | public/api-detran/index.js:136-150 | The CRC of `"123456789"` is 0x29B1, the published check value of CRC-16/CCITT-FALSE. |
| Crc16.LowBytesDecide | public/api-detran/index.js:139 | The CRC depends only on the low byte of each character code: texts of equal length whose characters agree in their low bytes have the same CRC. |
| Crc16.FeedLowByte | public/api-detran/index.js:139 | One character enters the register only through its low byte. |
| Crc16.FeedInjectiveRegister | public/api-detran/index.js:139-146 | Feeding the same character into two different registers gives two different registers. |
| Crc16.FeedInjectiveByte | public/api-detran/index.js:139-146 | Feeding two characters with different low bytes into one register gives two different registers. |
| Crc16.StepsInjective | public/api-detran/index.js:140-146 | The shift-and-XOR steps never map two registers to one. |
| Crc16.DifferenceSurvives | public/api-detran/index.js:138-147 | Once a change of one character's low byte has made the register differ, the register keeps differing after every later character. |
| Crc16.SingleChangeDetected | public/api-detran/index.js:136-150 | Changing the low byte of any one character changes the CRC. |
| Crc16.RegisterChain | public/api-detran/index.js:138-147 | A chain of registers that starts at 0xFFFF and follows each character ends at the CRC of the text. |
| Amount.CleanAmount | public/api-detran/index.js:52-57 | The clean-up brings in no character except `.`, and leaves no white space at either end. |
| Amount.CleanDisplayText | public/api-detran/index.js:52-57 | An amount written as Brazilian display text (`R$ 1.234,56`) cleans up to the plain decimal `1234.56`. |
| Amount.CleanDecimalComma | public/api-detran/index.js:52-57 | Digits with an optional minus, a comma and digits clean up to the same text with a point. |
| Amount.CleanPlain | public/api-detran/index.js:52-57 | A text without `R`, point or white space is changed only by turning its first comma into a point. |
| Amount.CleanFixedPoint | public/api-detran/index.js:55 | A point between digits is deleted by the clean-up: `12.50` becomes `1250`. |
| Amount.ParseFloat | public/api-detran/index.js:59 | A text that reads as a number holds a digit, and the number is negative exactly when the text starts with `-`. |
| Amount.ParseFixedPoint | public/api-detran/index.js:59 | `parseFloat` reads digits, a point and digits as the decimal they denote. |
| Amount.ParseScientific | public/api-detran/index.js:59 | `parseFloat` reads digits, a point, digits and an exponent `e` or `e-` with digits as the decimal scaled by that power of ten (`1.5e2` is 15 tenths times 10^2). |
| Amount.ParseWhole | public/api-detran/index.js:59 | `parseFloat` reads a run of digits as the integer it denotes. |
| Amount.ParseFloatMinus | public/api-detran/index.js:59-61 | A text starting with `-` never reads as a positive number. |
| Amount.ParseFloatZeros | public/api-detran/index.js:59-61 | A text whose only digits are zeros reads as zero if it reads at all. |
| Amount.DigitRun | public/api-detran/index.js:59 | The numeric prefix `parseFloat` reads stops at the first character that is not a digit. |
| Amount.ToCents | public/api-detran/index.js:66 | `toFixed(2)` in cents: exact when the number has at most two decimals, otherwise the nearest cent with halves rounded up. |
| Amount.RoundHalfUp | public/api-detran/index.js:66 | Division rounded to the nearest integer, halves up. |
| Amount.FormatCents | public/api-detran/index.js:66 | The `toFixed(2)` text is digits, a point and two digits: the integer part denotes the reais and the two digits the centavos. The integer part has no leading zero unless it is the single digit `0`. |
| Amount.FormatCentsReadsBack | public/api-detran/index.js:59-66 | The amount text written into the payload reads back through `parseFloat` as the same number of cents. |
| Amount.NoDigitRejected | public/api-detran/index.js:52-63 | An amount with no digit is rejected. |
| Amount.ZeroDigitsRejected | public/api-detran/index.js:52-63 | An amount whose only digits are zeros is rejected. |
| Amount.MinusRejected | public/api-detran/index.js:59-63 | An amount whose cleaned text starts with `-` is rejected. |
| Amount.NegativeRejected | public/api-detran/index.js:52-63 | A negative amount written with a decimal comma (`-10,00`) is rejected. |
| Amount.ParsedCents | public/api-detran/index.js:59-66 | The builder's amount check: an accepted amount has a digit other than zero, and its cleaned text is not empty and does not start with `-`. |
| Amount.AmountTextAsWritten | public/api-detran/index.js:59-66 | The amount text exists exactly when the check accepts the amount, and it reads back through `parseFloat` as the accepted cents. |
| Amount.NormalizeAmount | public/api-detran/index.js:52-66 | The corrected amount check: an accepted amount is a positive number of cents. |
| Amount.NormalizeAsWritten | public/api-detran/index.js:59-66 | The corrected check accepts an amount with the same text as the builder, and differs from it only where the builder writes `0.00`. |
| Amount.DisplayTextRoundTrip | public/api-detran/index.js:52-66 | A positive amount written as `R$` display text with thousands points and a decimal comma is accepted as exactly that number of cents, and the builder writes it as `toFixed(2)` of it. |
| Amount.GroupThousandsUngroups | public/api-detran/index.js:55 | Deleting the thousands points from a grouped number gives back its digits. |
| Amount.PointReadAsThousands | public/api-detran/index.js:55-66 | A decimal point is read as a thousands separator: the `toFixed(2)` text of `c` cents, typed back in, is accepted as `100 * c` cents. |
| Amount.SubCentAmount | public/api-detran/index.js:59-66 | An amount that is positive but below half a cent passes the builder's check and is written as `0.00`. The corrected check rejects it. |
| Amount.ZerosCommaReads | public/api-detran/index.js:52-59 | `0,00…d` cleans to `0.00…d` and reads as the decimal its digits after the comma denote. |
| Amount.SubCentRounds | public/api-detran/index.js:66 | A positive number below half a cent rounds to zero cents. |
| Pix.ReferenceLabel | public/api-detran/index.js:107-114 | With a reference that is present, not empty and not `N/A` (`HasReference`, line 107), the label is its first eight characters. Otherwise it is `IPVA2026`. |
| Pix.Truncate | public/api-detran/index.js:108 | `substring(0, 8)` is the longest prefix of at most eight characters. |
| Pix.MerchantAccount | public/api-detran/index.js:81-83 | The merchant account template is 22 characters plus the key. |
| Pix.MerchantAccountParses | public/api-detran/index.js:81-83 | The merchant account template reads as the Pix GUI under ID 00 and the key under ID 01. |
| Pix.Arrangement | public/api-detran/index.js:81 | The GUI data object is `0014BR.GOV.BCB.PIX`. |
| Pix.AdditionalData | public/api-detran/index.js:107-113 | The additional data template is 13 characters longer than the reference label: two data objects of 4 characters of framing each, plus the 5-character terminal label `03***`. Its contents are stated by `AdditionalDataParses`. |
| Pix.AdditionalDataParses | public/api-detran/index.js:107-113 | The additional data template reads as the reference label under ID 05 and `03***` under ID 07. |
| Pix.DefaultAdditionalData | public/api-detran/index.js:112 | Without a reference, the additional data template is the 21-character `0508IPVA2026070503***`. |
| Pix.AdditionalDataSpelled | public/api-detran/index.js:107-114 | The template built from the reference label is the text the builder writes, with and without a reference. |
| Pix.FormatIndicator | public/api-detran/index.js:78 | The payload format indicator is `000201`. |
| Pix.CategoryCode | public/api-detran/index.js:87 | The category code object is `52040000`. |
| Pix.Currency | public/api-detran/index.js:90 | The currency object is `5303986` (986, the Brazilian real). |
| Pix.Country | public/api-detran/index.js:96 | The country object is `5802BR`. |
| Pix.PayloadObjects | public/api-detran/index.js:78-114 | The payload has nine encodable objects: the key's template at position 1, the amount at position 4 and the additional data at position 8. |
| Pix.Close | public/api-detran/index.js:116-121 | Appending the CRC text keeps the body as the prefix and gives a code whose last four characters are the CRC of everything before them. |
| Pix.Seal | public/api-detran/index.js:116-121 | The sealed payload is the serialized objects, `6304` and a valid CRC. |
| Pix.GeneratePix | public/api-detran/index.js:47-133 | The corrected builder. The amount error comes first and exactly when the amount is rejected; the key error comes next and exactly when the key is not accepted (`KeyAccepted`: present and at least 11 characters, line 70). A payload is produced exactly when every length fits two digits, and its CRC is valid. |
| Pix.GeneratedPayloadParses | public/api-detran/index.js:75-121 | A generated payload reads as the nine objects followed by the CRC object. Its templates read as their sub-objects, and its amount reads back as the accepted cents. |
| Pix.GeneratedPayloadOrder | public/api-detran/index.js:78-121 | A reader of a generated payload finds the IDs 00, 26, 52, 53, 54, 58, 59, 60, 62, 63 in that order. The format indicator, category code, currency and country are the same for every input, and the payee is as given. The merchant account is 22 characters plus the key, the additional data is 13 characters plus the reference label, and the CRC digits come last. |
| Pix.GeneratedPayloadStart | public/api-detran/index.js:78 | A generated payload starts with `000201`. |
| Pix.SealedParses | public/api-detran/index.js:117-121 | Objects followed by `6304` and four characters read as those objects plus the CRC object. |
| Pix.CrcCatchesChange | public/api-detran/index.js:116-121 | Changing the low byte of any one character before the CRC digits makes the code fail its CRC. |
| Pix.PayloadAsWritten | public/api-detran/index.js:47-133 | The builder as written. It never reports a length error. The amount error comes exactly when the amount fails its check; the key error comes exactly when the amount passes and the key is not accepted (`KeyAccepted`, line 70). Otherwise it succeeds, its CRC is valid, and its body is the builder's literal text. |
| Pix.FieldAsWritten | public/api-detran/index.js:84 | `id + len.padStart(2, '0') + value` is a data object when the value fits, is longer than the ID and value plus two characters otherwise, and always ends with the value. |
| Pix.MerchantAccountAsWritten | public/api-detran/index.js:81-84 | The merchant account text starts with `0014BR.GOV.BCB.PIX` and ends with the key. It is 22 characters longer than the key when the key fits a two-digit length, and never shorter. |
| Pix.AdditionalDataAsWritten | public/api-detran/index.js:107-114 | The additional data text is ID 05, the label's length padded to two digits, the reference label and `070503***`: 13 characters plus the label. |
| Pix.BodyAsWritten | public/api-detran/index.js:78-117 | The text written before the CRC digits starts with the format indicator `000201` and the merchant account field. It ends with the additional data template followed by `6304`. |
| Pix.BodyAgrees | public/api-detran/index.js:75-117 | When every length fits, the text the builder writes is the serialization of the nine objects followed by `6304`. |
| Pix.MerchantAccountSpelled | public/api-detran/index.js:81-83 | The merchant account template is the text the builder writes. |
| Pix.AsWrittenAgrees | public/api-detran/index.js:47-133 | Whenever the corrected builder produces a payload, the builder as written produces the same payload. |
| Pix.LongKeyCorrupts | public/api-detran/index.js:82-84 | With a key longer than 77 characters, the merchant account template is longer than 99 characters, and its length text has three digits or more. The payload the builder returns starts with `000201`, then `26`, then that length text. No reading of the payload has the template as a data object. |
| Pix.LongTemplateWritten | public/api-detran/index.js:78-84 | A payload whose body opens with a merchant account template of more than 99 characters starts with `00020126` followed by the template's length text. No reading of it has the template as a data object. |
| Pix.LongKeyTemplate | public/api-detran/index.js:81-84 | A key longer than 77 characters makes the merchant account template longer than 99 characters. |
| Pix.LongKeyRejected | public/api-detran/index.js:82-84 | The corrected builder rejects a key longer than 77 characters with a length error. |
| Pix.ZeroAmountPayload | public/api-detran/index.js:59-121 | An amount below half a cent with an accepted key gives, as written, a payload whose amount object is `0.00`. The corrected builder rejects it as an invalid amount. |
| Pix.BuilderPayeeFits | public/api-detran/index.js:99-104 | With the builder's fixed payee name and city, only the amount text and the key can overflow a two-digit length. |

## Left out

- The HTTP routes, the scraping of the DETRAN site, sessions, statistics and the admin pages are not about building the payload.
- QR image rendering (`gerarQRCodeBase64`, lines 155-181) hands the payload to an external library.
- Console logging (lines 48, 67, 123-125 and 130) has no effect on the result.
- Binary floating point. Amounts are exact decimals, so several `parseFloat` and `toFixed` behaviours are not modelled:
  - a tie such as `1.005`, which a double stores just below the half and `toFixed(2)` rounds down;
  - loss of precision beyond 15-17 significant digits;
  - `toFixed` switching to exponent notation at 1e21 or more;
  - `parseFloat("Infinity")`;
  - underflow: `"1e-400"` reads as 0 in JavaScript, which the check rejects. The model reads it as an exact positive decimal, so `ParsedCents` accepts it and the as-written amount is `0.00` (the corrected `NormalizeAmount` rejects it);
  - overflow: `"1e400"` reads as `Infinity` in JavaScript, which passes `> 0` and is written as `Infinity`. The model reads it as an exact number of cents.
- Amount.ToCents: rounds an exact half up, where `toFixed(2)` rounds the nearest double, which can lie on either side of the half.
- `valor.toString()` on something that is not a string (a number, or `null`, which throws) is not modelled. The amount is always a string.
- A reference that is not a string is not modelled. `renavam.substring` would throw on a number.
- Text is modelled as Unicode scalar values. A character above U+FFFF counts once where JavaScript counts two UTF-16 code units, so lengths and the CRC of such text differ. Lone surrogates cannot be represented. No normalisation is modelled.
- The `try`/`catch` that logs and rethrows becomes an `Err` result. The error message texts are not modelled.
- A missing key (`undefined`, `null` or `""`) is `None`, or `Some("")`, which the length test rejects in the same way.
- The payee name and city are parameters, not the builder's constants. `BuilderPayeeFits` shows what the constants imply.

## Findings

| source | as written | input that shows it | evidently intended | confidence | as-written member | corrected member |
|---|---|---|---|---|---|---|
| public/api-detran/index.js:82-84 | The merchant account length is `mai.length.toString().padStart(2, '0')`, and `padStart` never truncates. A key over 77 characters makes the template 100 characters or more. The payload then starts with `00020126` followed by a length text of three digits or more, and no reading of it as ID–Length–Value text has the template as a data object. | Any key of 78 or more characters, with any valid amount. | Reject a payload whose fields do not fit a two-digit length. | not executed | Pix.LongKeyCorrupts | Pix.LongKeyRejected |
| public/api-detran/index.js:61-66 | Positivity is checked on the parsed number, before `toFixed(2)` rounds it. A positive amount below half a cent passes the check. The payload then carries the amount `0.00`. | `"0,004"`, cleaned to `0.004`, passes `> 0` and is written as `0.00`. | Reject an amount that rounds to zero cents. | not executed | Amount.SubCentAmount | Amount.NormalizeAmount |

=== FILE: amount.dfy ===
/** The amount clean-up at the start of the Pix payload builder: strip the
    currency symbol, delete every `.`, turn the first `,` into `.`, trim,
    read the longest numeric prefix the way `parseFloat` does, reject what is
    not a number or not positive, and format with `toFixed(2)`.

    Numbers are exact decimals here rather than binary doubles, and amounts
    are carried as integer cents. */
module Amount {
  import opened Outcomes
  import opened Strings

  // ---------------------------------------------------------------------
  // Clean-up
  // ---------------------------------------------------------------------

  /** `valor.replace('R$ ', '').replace('R$', '').replace(/\./g, '')
      .replace(',', '.').trim()`. */
  function CleanAmount(valor: string): (r: string)
    ensures forall x :: x in r ==> x in valor || x == '.'
    ensures |r| > 0 ==> !IsJsSpace(r[0]) && !IsJsSpace(r[|r| - 1])
  {
    var noSpaced := ReplaceFirst(valor, "R$ ", "");
    var noSymbol := ReplaceFirst(noSpaced, "R$", "");
    var noPoints := RemoveAll(noSymbol, '.');
    var pointed := ReplaceFirst(noPoints, ",", ".");
    CharsKept(valor, noSpaced, noSymbol, noPoints, pointed, Trim(pointed));
    Trim(pointed)
  }

  /** Each stage of the clean-up only drops characters, except the comma
      that becomes a point. */
  lemma CharsKept(valor: string, noSpaced: string, noSymbol: string, noPoints: string, pointed: string, r: string)
    requires forall x :: x in noSpaced ==> x in valor
    requires forall x :: x in noSymbol ==> x in noSpaced
    requires forall x :: x in noPoints ==> x in noSymbol
    requires forall x :: x in pointed ==> x in noPoints || x == '.'
    requires forall x :: x in r ==> x in pointed
    ensures forall x :: x in r ==> x in valor || x == '.'
  {
  }

  // ---------------------------------------------------------------------
  // parseFloat
  // ---------------------------------------------------------------------

  /** An exact decimal: (-1)^negative * significand * 10^(exponent - scale),
      where `scale` counts the digits written after the decimal point. */
  datatype Decimal = Decimal(negative: bool, significand: nat, scale: nat, exponent: int)

  predicate IsPositive(d: Decimal) {
    !d.negative && d.significand > 0
  }

  /** The length of the run of decimal digits `s` starts with. */
  function DigitRun(s: string): (n: nat)
    ensures n <= |s| && AllDigits(s[..n])
    ensures n < |s| ==> !IsDigit(s[n])
  {
    if |s| == 0 || !IsDigit(s[0]) then 0
    else
      var n := 1 + DigitRun(s[1..]);
      assert s[..n] == [s[0]] + s[1..][..n - 1];
      n
  }

  /** The value of an exponent part `e`/`E`, optional sign, at least one
      digit, at the start of `s`; 0 when there is none. */
  function ExponentPart(s: string): int {
    if |s| < 2 || (s[0] != 'e' && s[0] != 'E') then 0
    else
      var sign := if s[1] == '-' || s[1] == '+' then 1 else 0;
      var digits := s[1 + sign..][..DigitRun(s[1 + sign..])];
      if |digits| == 0 then 0
      else if s[1] == '-' then -(DigitsValue(digits) as int)
      else DigitsValue(digits)
  }

  /** The digits after a decimal point at the start of `u`; none when `u`
      does not start with a point. */
  function Fraction(u: string): (f: string)
    ensures AllDigits(f)
  {
    if |u| > 0 && u[0] == '.' then u[1..][..DigitRun(u[1..])] else ""
  }

  /** What follows the point and its digits, or all of `u` when it does not
      start with a point. A point with no digits after it is still taken. */
  function AfterFraction(u: string): string {
    if |u| > 0 && u[0] == '.' then u[1..][DigitRun(u[1..])..] else u
  }

  /** `parseFloat` of the text after an optional sign: digits, optionally a
      point and digits, optionally an exponent; `None` when the mantissa has
      no digit at all. */
  function ParseUnsigned(t: string): (r: Option<Decimal>)
    ensures r.Some? ==> !r.value.negative
    ensures r.Some? ==> HasDigit(t)
  {
    var i := DigitRun(t);
    var frac := Fraction(t[i..]);
    if i + |frac| == 0 then None
    else
      MantissaDigit(t);
      Some(Decimal(false, DigitsValue(t[..i] + frac), |frac|, ExponentPart(AfterFraction(t[i..]))))
  }

  /** `parseFloat(s)` on an already trimmed string: the longest prefix of the
      form sign? digits ('.' digits?)? exponent? or sign? '.' digits
      exponent?, and `None` (NaN) when there is no such prefix. */
  function ParseFloat(s: string): (r: Option<Decimal>)
    ensures r.Some? ==> HasDigit(s)
    ensures r.Some? ==> |s| > 0 && (r.value.negative <==> s[0] == '-')
  {
    if |s| > 0 && (s[0] == '-' || s[0] == '+') then
      match ParseUnsigned(s[1..])
      case None => None
      case Some(d) =>
        DigitAfterSign(s);
        Some(d.(negative := s[0] == '-'))
    else ParseUnsigned(s)
  }

  /** Some character of `s` is a decimal digit. */
  predicate HasDigit(s: string) {
    exists i :: 0 <= i < |s| && IsDigit(s[i])
  }

  /** A mantissa with a digit before or after its point has a digit. */
  lemma MantissaDigit(t: string)
    requires DigitRun(t) + |Fraction(t[DigitRun(t)..])| > 0
    ensures HasDigit(t)
  {
    var i := DigitRun(t);
    if i > 0 {
      assert t[..i][0] == t[0];
      assert IsDigit(t[0]);
    } else {
      assert t[i..] == t;
      var f := Fraction(t);
      assert f[0] == t[1];
      assert IsDigit(t[1]);
    }
  }

  /** A digit after the sign is a digit of the whole text. */
  lemma DigitAfterSign(s: string)
    requires |s| > 0 && HasDigit(s[1..])
    ensures HasDigit(s)
  {
    var i :| 0 <= i < |s[1..]| && IsDigit(s[1..][i]);
    assert s[i + 1] == s[1..][i];
  }

  /** A text whose first character is `-` never reads as a positive number. */
  lemma ParseFloatMinus(s: string)
    requires |s| > 0 && s[0] == '-'
    ensures ParseFloat(s).None? || !IsPositive(ParseFloat(s).value)
  {
  }

  /** Every digit in `s` is a zero. */
  predicate ZeroDigitsOnly(s: string) {
    forall i :: 0 <= i < |s| && IsDigit(s[i]) ==> s[i] == '0'
  }

  /** A text whose digits are all zeros reads as zero, if it reads at all. */
  lemma ParseFloatZeros(s: string)
    requires ZeroDigitsOnly(s)
    ensures ParseFloat(s).None? || !IsPositive(ParseFloat(s).value)
  {
    var signed := |s| > 0 && (s[0] == '-' || s[0] == '+');
    ZeroDigitsSuffix(s, if signed then 1 else 0);
    UnsignedZeros(if signed then s[1..] else s);
  }

  lemma UnsignedZeros(t: string)
    requires ZeroDigitsOnly(t)
    ensures ParseUnsigned(t).None? || ParseUnsigned(t).value.significand == 0
  {
    var i := DigitRun(t);
    ZeroDigitsPrefix(t, i);
    ZeroDigitsSuffix(t, i);
    FractionZeros(t[i..]);
    ZerosJoined(t[..i], Fraction(t[i..]));
  }

  lemma FractionZeros(u: string)
    requires ZeroDigitsOnly(u)
    ensures ZeroDigitsOnly(Fraction(u))
  {
    if |u| > 0 && u[0] == '.' {
      ZeroDigitsSuffix(u, 1);
      ZeroDigitsPrefix(u[1..], DigitRun(u[1..]));
    }
  }

  lemma ZeroDigitsPrefix(s: string, n: nat)
    requires ZeroDigitsOnly(s) && n <= |s|
    ensures ZeroDigitsOnly(s[..n])
  {
    assert forall i :: 0 <= i < n ==> s[..n][i] == s[i];
  }

  lemma ZeroDigitsSuffix(s: string, n: nat)
    requires ZeroDigitsOnly(s) && n <= |s|
    ensures ZeroDigitsOnly(s[n..])
  {
    assert forall i :: 0 <= i < |s| - n ==> s[n..][i] == s[n + i];
  }

  /** Two runs of zeros read as zero together. */
  lemma ZerosJoined(a: string, b: string)
    requires AllDigits(a) && AllDigits(b) && ZeroDigitsOnly(a) && ZeroDigitsOnly(b)
    ensures AllDigits(a + b) && DigitsValue(a + b) == 0
  {
    var ab := a + b;
    forall k | 0 <= k < |ab|
      ensures ab[k] == '0'
    {
      if k < |a| {
        assert ab[k] == a[k];
      } else {
        assert ab[k] == b[k - |a|];
      }
    }
    AllZerosValue(ab);
  }

  lemma {:induction false} AllZerosValue(s: string)
    requires forall k :: 0 <= k < |s| ==> s[k] == '0'
    ensures AllDigits(s) && DigitsValue(s) == 0
  {
    assert AllDigits(s);
    if |s| > 0 {
      AllZerosValue(s[..|s| - 1]);
    }
  }

  // ---------------------------------------------------------------------
  // toFixed(2)
  // ---------------------------------------------------------------------

  /** The decimal rounded to whole cents as `toFixed(2)` rounds: to the
      nearest cent, and on a tie to the larger one. Meant for positive
      decimals, the only ones that reach it. */
  function ToCents(d: Decimal): (c: nat)
    ensures var shift := d.exponent + 2 - d.scale;
      && (shift >= 0 ==> c == d.significand * Pow10(shift))
      && (shift < 0 ==>
            var q := Pow10(-shift);
            2 * c * q <= 2 * d.significand + q < 2 * (c + 1) * q)
  {
    var shift := d.exponent + 2 - d.scale;
    if shift >= 0 then d.significand * Pow10(shift)
    else
      var q := Pow10(-shift);
      RoundHalfUp(d.significand, q)
  }

  /** `n / q` rounded to the nearest integer, ties upwards. */
  function RoundHalfUp(n: nat, q: nat): (c: nat)
    requires q >= 1
    ensures 2 * c * q <= 2 * n + q < 2 * (c + 1) * q
  {
    var c := (2 * n + q) / (2 * q);
    DivBounds(2 * n + q, 2 * q);
    c
  }

  lemma DivBounds(a: nat, b: nat)
    requires b >= 1
    ensures (a / b) * b <= a < (a / b + 1) * b
  {
  }

  /** `toFixed(2)` of a whole number of cents: the integer part without
      leading zeros, a point, and exactly two digits. */
  function FormatCents(c: nat): (r: string)
    ensures |r| >= 4 && r[|r| - 3] == '.'
    ensures AllDigits(r[..|r| - 3]) && AllDigits(r[|r| - 2..])
    ensures DigitsValue(r[..|r| - 3]) == c / 100 && DigitsValue(r[|r| - 2..]) == c % 100
    ensures |r| > 4 ==> r[0] != '0'
  {
    var whole := DecimalString(c / 100);
    var cents := TwoDigits(c % 100);
    var r := whole + "." + cents;
    assert r[..|r| - 3] == whole && r[|r| - 2..] == cents;
    r
  }

  // ---------------------------------------------------------------------
  // The amount check
  // ---------------------------------------------------------------------

  /** The amount in cents after clean-up, `parseFloat`, the check
      `isNaN(v) || v <= 0` and `toFixed(2)`; `None` where the builder throws.
      The positivity check comes before rounding, so a positive amount
      below half a cent passes it and becomes 0 cents. */
  function ParsedCents(valor: string): (r: Option<nat>)
    ensures r.Some? ==> exists i :: 0 <= i < |valor| && IsDigit(valor[i]) && valor[i] != '0'
    ensures r.Some? ==> |CleanAmount(valor)| > 0 && CleanAmount(valor)[0] != '-'
  {
    match ParseFloat(CleanAmount(valor))
    case None => None
    case Some(d) =>
      if IsPositive(d) then
        NonZeroDigit(valor, d);
        Some(ToCents(d))
      else None
  }

  /** An amount that reads as a positive number has a digit other than 0. */
  lemma NonZeroDigit(valor: string, d: Decimal)
    requires ParseFloat(CleanAmount(valor)) == Some(d) && IsPositive(d)
    ensures exists i :: 0 <= i < |valor| && IsDigit(valor[i]) && valor[i] != '0'
  {
    var s := CleanAmount(valor);
    PositiveDigit(s, d);
    DigitCarried(valor, s);
  }

  /** A text that reads as a positive number has a digit other than 0. */
  lemma PositiveDigit(s: string, d: Decimal)
    requires ParseFloat(s) == Some(d) && IsPositive(d)
    ensures exists j :: 0 <= j < |s| && IsDigit(s[j]) && s[j] != '0'
  {
    if ZeroDigitsOnly(s) {
      ParseFloatZeros(s);
      assert false;
    }
  }

  /** A digit of a text made only of characters of `valor` and points is
      a character of `valor`. */
  lemma DigitCarried(valor: string, s: string)
    requires forall x :: x in s ==> x in valor || x == '.'
    requires exists j :: 0 <= j < |s| && IsDigit(s[j]) && s[j] != '0'
    ensures exists i :: 0 <= i < |valor| && IsDigit(valor[i]) && valor[i] != '0'
  {
    var j :| 0 <= j < |s| && IsDigit(s[j]) && s[j] != '0';
    assert s[j] in s;
    var i :| 0 <= i < |valor| && valor[i] == s[j];
  }

  /** The cents of an amount whose cleaned text reads as a positive number. */
  lemma CentsOf(valor: string, d: Decimal)
    requires ParseFloat(CleanAmount(valor)) == Some(d) && IsPositive(d)
    ensures ParsedCents(valor) == Some(ToCents(d))
  {
  }

  /** The amount text the builder puts in the payload, as written. */
  function AmountTextAsWritten(valor: string): (r: Option<string>)
    ensures r.Some? <==> ParsedCents(valor).Some?
    ensures r.Some? ==>
      && ParseFloat(r.value) == Some(Decimal(false, ParsedCents(valor).value, 2, 0))
      && ToCents(ParseFloat(r.value).value) == ParsedCents(valor).value
  {
    match ParsedCents(valor)
    case None => None
    case Some(c) =>
      FormatCentsReadsBack(c);
      Some(FormatCents(c))
  }

  /** The amount check as evidently intended: besides what the builder
      rejects, an amount that rounds to zero cents is rejected too. */
  function NormalizeAmount(valor: string): (r: Option<nat>)
    ensures r.Some? ==> r.value > 0
  {
    match ParsedCents(valor)
    case None => None
    case Some(c) => if c == 0 then None else Some(c)
  }

  /** The corrected check differs from the check as written only where the
      builder as written would put "0.00" in the payload. */
  lemma NormalizeAsWritten(valor: string)
    ensures NormalizeAmount(valor).Some? ==>
      AmountTextAsWritten(valor) == Some(FormatCents(NormalizeAmount(valor).value))
    ensures NormalizeAmount(valor).None? && AmountTextAsWritten(valor).Some? ==>
      AmountTextAsWritten(valor) == Some("0.00")
  {
    ZeroCentsText();
  }

  lemma ZeroCentsText()
    ensures FormatCents(0) == "0.00"
  {
    assert DecimalString(0) == "0";
    assert TwoDigits(0) == "00";
  }

  // ---------------------------------------------------------------------
  // Reading amounts back
  // ---------------------------------------------------------------------

  lemma {:induction false} DigitRunOf(a: string, b: string)
    requires AllDigits(a)
    requires |b| > 0 ==> !IsDigit(b[0])
    ensures DigitRun(a + b) == |a|
    decreases |a|
  {
    if |a| > 0 {
      assert (a + b)[1..] == a[1..] + b;
      DigitRunOf(a[1..], b);
    } else {
      assert a + b == b;
    }
  }

  /** `parseFloat` of digits, a point and digits. */
  lemma ParseFixedPoint(whole: string, frac: string)
    requires |whole| > 0 && AllDigits(whole) && AllDigits(frac)
    ensures AllDigits(whole + frac)
    ensures ParseFloat(whole + "." + frac) == Some(Decimal(false, DigitsValue(whole + frac), |frac|, 0))
  {
    var u := "." + frac;
    Regroup(whole, ".", frac);
    UnsignedDigitsFirst(whole + u);
    UnsignedAfterDigits(whole, u);
    PointThenDigits(frac);
  }

  /** `parseFloat` of a plain run of digits. */
  lemma ParseWhole(digits: string)
    requires |digits| > 0 && AllDigits(digits)
    ensures ParseFloat(digits) == Some(Decimal(false, DigitsValue(digits), 0, 0))
  {
    assert digits + "" == digits;
    UnsignedDigitsFirst(digits);
    UnsignedAfterDigits(digits, "");
  }

  /** `parseFloat` of digits, a point, digits and an exponent `e` or `e-`
      with digits: the exponent scales the decimal. */
  lemma ParseScientific(whole: string, frac: string, exp: string, negative: bool)
    requires |whole| > 0 && AllDigits(whole) && AllDigits(frac)
    requires |exp| > 0 && AllDigits(exp)
    ensures AllDigits(whole + frac)
    ensures ParseFloat(whole + "." + frac + ((if negative then "e-" else "e") + exp))
      == Some(Decimal(false, DigitsValue(whole + frac), |frac|,
                      if negative then -(DigitsValue(exp) as int) else DigitsValue(exp)))
  {
    ParseWithTail(whole, frac, (if negative then "e-" else "e") + exp);
    ExponentOf(exp, negative);
  }

  /** `parseFloat` of digits, a point and digits, followed by a text that
      starts with something other than a digit. */
  lemma ParseWithTail(whole: string, frac: string, tail: string)
    requires |whole| > 0 && AllDigits(whole) && AllDigits(frac)
    requires |tail| > 0 && !IsDigit(tail[0])
    ensures AllDigits(whole + frac)
    ensures ParseFloat(whole + "." + frac + tail)
      == Some(Decimal(false, DigitsValue(whole + frac), |frac|, ExponentPart(tail)))
  {
    Regroup(whole + ".", frac, tail);
    Regroup(whole, ".", frac + tail);
    Regroup(".", frac, tail);
    ReadAfterWhole(whole, "." + frac + tail, frac, tail);
  }

  lemma ReadAfterWhole(whole: string, u: string, frac: string, tail: string)
    requires |whole| > 0 && AllDigits(whole) && AllDigits(frac)
    requires |tail| > 0 && !IsDigit(tail[0]) && u == "." + frac + tail
    ensures ParseFloat(whole + u) == Some(Decimal(false, DigitsValue(whole + frac), |frac|, ExponentPart(tail)))
  {
    UnsignedDigitsFirst(whole + u);
    UnsignedAfterDigits(whole, u);
    PointDigitsThen(frac, tail);
  }

  /** A point and digits followed by something that is not a digit. */
  lemma PointDigitsThen(frac: string, rest: string)
    requires AllDigits(frac) && |rest| > 0 && !IsDigit(rest[0])
    ensures Fraction("." + frac + rest) == frac && AfterFraction("." + frac + rest) == rest
  {
    var u := "." + frac + rest;
    assert u[1..] == frac + rest;
    DigitRunOf(frac, rest);
    assert (frac + rest)[..|frac|] == frac && (frac + rest)[|frac|..] == rest;
  }

  /** An exponent `e` or `e-` followed by digits only. */
  lemma ExponentOf(exp: string, negative: bool)
    requires |exp| > 0 && AllDigits(exp)
    ensures ExponentPart((if negative then "e-" else "e") + exp)
      == if negative then -(DigitsValue(exp) as int) else DigitsValue(exp)
  {
    var s := (if negative then "e-" else "e") + exp;
    var k := if negative then 2 else 1;
    assert s[k..] == exp;
    assert IsDigit(exp[0]);
    DigitRunOf(exp, "");
    assert exp + "" == exp && exp[..|exp|] == exp;
  }

  /** A text that starts with a digit has no sign. */
  lemma UnsignedDigitsFirst(s: string)
    requires |s| > 0 && IsDigit(s[0])
    ensures ParseFloat(s) == ParseUnsigned(s)
  {
  }

  /** Digits followed by text that does not start with a digit. */
  lemma UnsignedAfterDigits(whole: string, u: string)
    requires |whole| > 0 && AllDigits(whole)
    requires |u| > 0 ==> !IsDigit(u[0])
    ensures ParseUnsigned(whole + u)
      == Some(Decimal(false, DigitsValue(whole + Fraction(u)), |Fraction(u)|, ExponentPart(AfterFraction(u))))
  {
    var t := whole + u;
    DigitRunOf(whole, u);
    assert t[..|whole|] == whole && t[|whole|..] == u;
  }

  /** A point followed by digits is a fraction with nothing after it. */
  lemma PointThenDigits(frac: string)
    requires AllDigits(frac)
    ensures Fraction("." + frac) == frac && AfterFraction("." + frac) == ""
  {
    var u := "." + frac;
    assert u[1..] == frac;
    DigitRunOf(frac, "");
    assert frac + "" == frac;
    assert frac[..|frac|] == frac && frac[|frac|..] == "";
  }

  /** Reading back what `toFixed(2)` wrote gives the same number of cents. */
  lemma FormatCentsReadsBack(c: nat)
    ensures ParseFloat(FormatCents(c)) == Some(Decimal(false, c, 2, 0))
    ensures ToCents(Decimal(false, c, 2, 0)) == c
  {
    var d, f := DecimalString(c / 100), TwoDigits(c % 100);
    FormatCentsSpelled(c);
    ParseFixedPoint(d, f);
    assert Pow10(0) == 1;
  }

  /** Digits grouped in threes from the right with `.`, the way amounts in
      reais are usually written: "1234567" becomes "1.234.567". */
  function GroupThousands(d: string): string
    decreases |d|
  {
    if |d| <= 3 then d else GroupThousands(d[..|d| - 3]) + "." + d[|d| - 3..]
  }

  /** Grouping only inserts points: deleting them gives the digits back. */
  lemma {:induction false} GroupThousandsUngroups(d: string)
    requires AllDigits(d)
    ensures var r := GroupThousands(d);
      && (forall i :: 0 <= i < |r| ==> IsDigit(r[i]) || r[i] == '.')
      && RemoveAll(r, '.') == d
    decreases |d|
  {
    if |d| <= 3 {
      DigitsHaveNo(d, '.');
    } else {
      var head, tail := d[..|d| - 3], d[|d| - 3..];
      GroupThousandsUngroups(head);
      GroupJoin(GroupThousands(head), head, tail);
      assert d == head + tail;
    }
  }

  /** One more group of digits after a point. */
  lemma GroupJoin(g: string, head: string, tail: string)
    requires forall i :: 0 <= i < |g| ==> IsDigit(g[i]) || g[i] == '.'
    requires RemoveAll(g, '.') == head && AllDigits(tail)
    ensures var r := g + "." + tail;
      && (forall i :: 0 <= i < |r| ==> IsDigit(r[i]) || r[i] == '.')
      && RemoveAll(r, '.') == head + tail
  {
    var r := g + "." + tail;
    forall i | 0 <= i < |r|
      ensures IsDigit(r[i]) || r[i] == '.'
    {
      if i < |g| {
        assert r[i] == g[i];
      } else if i > |g| {
        assert r[i] == tail[i - |g| - 1];
      }
    }
    DigitsHaveNo(tail, '.');
    RemovePointJoin(g, tail);
  }

  /** Deleting points from two texts joined by a point. */
  lemma RemovePointJoin(g: string, tail: string)
    requires '.' !in tail
    ensures RemoveAll(g + "." + tail, '.') == RemoveAll(g, '.') + tail
  {
    var gp := g + ".";
    RemoveAllAppend(gp, tail, '.');
    assert RemoveAll(gp + tail, '.') == RemoveAll(gp, '.') + tail;
    RemoveAllAppend(g, ".", '.');
    RemoveOne('.', '.');
    assert RemoveAll(gp, '.') == RemoveAll(g, '.');
  }

  /** Deleting a character from a one-character text. */
  lemma RemoveOne(x: char, c: char)
    ensures RemoveAll([x], c) == if x == c then [] else [x]
  {
    assert [x][1..] == [];
  }

  /** An amount in cents as a person in Brazil writes it: currency symbol,
      grouped reais, a decimal comma and two digits of centavos
      ("R$ 1.234,56"). */
  function DisplayText(c: nat): string {
    "R$ " + GroupThousands(DecimalString(c / 100)) + "," + TwoDigits(c % 100)
  }

  /** Removing the leading "R$ " and then looking for "R$" in a text
      without an `R` leaves the text. */
  lemma StripSymbol(body: string)
    requires 'R' !in body
    ensures ReplaceFirst(ReplaceFirst("R$ " + body, "R$ ", ""), "R$", "") == body
  {
    IndexOfPrefix("R$ ", body);
    assert ("R$ " + body)[3..] == body;
    IndexOfAbsent(body, "R$");
  }

  lemma DigitsHaveNo(d: string, c: char)
    requires AllDigits(d) && !IsDigit(c)
    ensures c !in d
  {
  }

  /** Deleting the thousands points and turning the decimal comma into a
      point gives plain fixed-point text. */
  lemma PointsAndComma(g: string, d: string, f: string)
    requires RemoveAll(g, '.') == d && AllDigits(d) && AllDigits(f)
    ensures ReplaceFirst(RemoveAll(g + "," + f, '.'), ",", ".") == d + "." + f
  {
    RemoveAllAppend(g + ",", f, '.');
    RemoveAllAppend(g, ",", '.');
    assert RemoveAll(",", '.') == ",";
    DigitsHaveNo(f, '.');
    assert RemoveAll(g + "," + f, '.') == d + [','] + f;
    DigitsHaveNo(d, ',');
    IndexOfChar(d, ',', f);
    var joined := d + [','] + f;
    assert joined[..|d|] == d && joined[|d| + 1..] == f;
  }

  lemma FixedPointHasNoSpace(d: string, f: string)
    requires AllDigits(d) && AllDigits(f)
    ensures NoJsSpace(d + "." + f)
  {
    var fixed := d + "." + f;
    forall i | 0 <= i < |fixed|
      ensures !IsJsSpace(fixed[i])
    {
      if i < |d| { assert fixed[i] == d[i]; }
      else if i > |d| { assert fixed[i] == f[i - |d| - 1]; }
    }
  }

  lemma CleanDisplayText(c: nat)
    ensures CleanAmount(DisplayText(c)) == DecimalString(c / 100) + "." + TwoDigits(c % 100)
  {
    var d, f := DecimalString(c / 100), TwoDigits(c % 100);
    var g := GroupThousands(d);
    GroupThousandsUngroups(d);
    assert DisplayText(c) == "R$ " + (g + "," + f) by {
      Regroup("R$ " + g, ",", f);
      Regroup("R$ ", g, ",");
      Regroup("R$ ", g + ",", f);
    }
    GroupedHasNoR(g, f);
    CleanGrouped(g, d, f);
  }

  /** Grouped digits, a comma and digits hold no `R`. */
  lemma GroupedHasNoR(g: string, f: string)
    requires forall i :: 0 <= i < |g| ==> IsDigit(g[i]) || g[i] == '.'
    requires AllDigits(f)
    ensures 'R' !in g + "," + f
  {
    var body := g + "," + f;
    forall i | 0 <= i < |body|
      ensures body[i] != 'R'
    {
      if i < |g| {
        assert body[i] == g[i];
      } else if i > |g| {
        assert body[i] == f[i - |g| - 1];
      }
    }
  }

  /** Clean-up of grouped reais and centavos after the currency symbol. */
  lemma CleanGrouped(g: string, d: string, f: string)
    requires RemoveAll(g, '.') == d && AllDigits(d) && AllDigits(f)
    requires 'R' !in g + "," + f
    ensures CleanAmount("R$ " + (g + "," + f)) == d + "." + f
  {
    StripSymbol(g + "," + f);
    PointsAndComma(g, d, f);
    FixedPointHasNoSpace(d, f);
  }

  lemma CentsSplit(c: nat)
    ensures (c / 100) * Pow10(2) + c % 100 == c
  {
    assert Pow10(2) == 100;
  }

  /** Amounts written the Brazilian way are read as exactly the cents they
      show: "R$ 1.234,56" is 123456 cents, and its payload text is
      "1234.56". */
  lemma DisplayTextRoundTrip(c: nat)
    requires c > 0
    ensures NormalizeAmount(DisplayText(c)) == Some(c)
    ensures AmountTextAsWritten(DisplayText(c)) == Some(FormatCents(c))
  {
    DisplayTextCents(c);
  }

  lemma DisplayTextCents(c: nat)
    requires c > 0
    ensures ParsedCents(DisplayText(c)) == Some(c)
  {
    DisplayTextParses(c);
    FormatCentsReadsBack(c);
    CentsOf(DisplayText(c), Decimal(false, c, 2, 0));
  }

  lemma DisplayTextParses(c: nat)
    ensures ParseFloat(CleanAmount(DisplayText(c))) == Some(Decimal(false, c, 2, 0))
  {
    var d, f := DecimalString(c / 100), TwoDigits(c % 100);
    CleanDisplayText(c);
    FormatCentsSpelled(c);
    ParseFixedPoint(d, f);
  }

  // ---------------------------------------------------------------------
  // What the amount check rejects
  // ---------------------------------------------------------------------

  /** An amount with no digit in it is rejected: "", "abc", "R$". */
  lemma NoDigitRejected(valor: string)
    requires forall x :: x in valor ==> !IsDigit(x)
    ensures ParsedCents(valor).None? && NormalizeAmount(valor).None?
  {
  }

  /** An amount whose only digits are zeros is rejected: "0", "R$ 0,00". */
  lemma ZeroDigitsRejected(valor: string)
    requires forall x :: x in valor && IsDigit(x) ==> x == '0'
    ensures ParsedCents(valor).None? && NormalizeAmount(valor).None?
  {
    var s := CleanAmount(valor);
    assert forall i :: 0 <= i < |s| ==> s[i] in s;
    ParseFloatZeros(s);
  }

  /** An amount that reads as a negative number after clean-up is rejected. */
  lemma MinusRejected(valor: string)
    requires |CleanAmount(valor)| > 0 && CleanAmount(valor)[0] == '-'
    ensures ParsedCents(valor).None? && NormalizeAmount(valor).None?
  {
    ParseFloatMinus(CleanAmount(valor));
  }

  /** Without a currency symbol, points or white space, clean-up only turns
      the first comma into a point. */
  lemma CleanPlain(s: string)
    requires 'R' !in s && '.' !in s
    requires forall x :: x in s ==> !IsJsSpace(x)
    ensures CleanAmount(s) == ReplaceFirst(s, ",", ".")
  {
    assert ReplaceFirst(ReplaceFirst(s, "R$ ", ""), "R$", "") == s by {
      IndexOfAbsent(s, "R$ ");
      IndexOfAbsent(s, "R$");
    }
    assert RemoveAll(s, '.') == s;
    var r := ReplaceFirst(s, ",", ".");
    assert NoJsSpace(r) by {
      forall i | 0 <= i < |r|
        ensures !IsJsSpace(r[i])
      {
        assert r[i] in r;
      }
    }
  }

  /** Turning the first comma of a text into a point. */
  lemma CommaToPoint(a: string, b: string)
    requires ',' !in a
    ensures ReplaceFirst(a + "," + b, ",", ".") == a + "." + b
  {
    IndexOfChar(a, ',', b);
    var s := a + [','] + b;
    assert s[..|a|] == a && s[|a| + 1..] == b;
  }

  /** Clean-up of digits, a comma and digits, with an optional leading
      sign, only turns the comma into a point. */
  lemma CleanDecimalComma(a: string, f: string)
    requires |a| > 0 && (a[0] == '-' || IsDigit(a[0])) && AllDigits(a[1..]) && AllDigits(f)
    ensures CleanAmount(a + "," + f) == a + "." + f
  {
    var valor := a + "," + f;
    SignedDigits(a);
    assert ',' !in a;
    assert forall x :: x in valor ==> x == '-' || x == ',' || IsDigit(x) by {
      forall i | 0 <= i < |valor|
        ensures valor[i] == '-' || valor[i] == ',' || IsDigit(valor[i])
      {
        if i < |a| {
          assert valor[i] == a[i];
        } else if i > |a| {
          assert valor[i] == f[i - |a| - 1];
        }
      }
    }
    CommaToPoint(a, f);
    CleanPlain(valor);
  }

  /** A sign or digit followed by digits. */
  lemma SignedDigits(a: string)
    requires |a| > 0 && (a[0] == '-' || IsDigit(a[0])) && AllDigits(a[1..])
    ensures forall i :: 0 <= i < |a| ==> a[i] == '-' || IsDigit(a[i])
  {
    forall i | 0 < i < |a|
      ensures IsDigit(a[i])
    {
      assert a[i] == a[1..][i - 1];
    }
  }

  /** A negative amount written with a decimal comma, such as "-5,00", is
      rejected. */
  lemma NegativeRejected(d: string, f: string)
    requires AllDigits(d) && AllDigits(f)
    ensures ParsedCents("-" + d + "," + f).None? && NormalizeAmount("-" + d + "," + f).None?
  {
    var a := "-" + d;
    assert a[1..] == d;
    CleanDecimalComma(a, f);
    MinusRejected(a + "," + f);
  }

  /** Clean-up deletes the point of fixed-point text. */
  lemma CleanFixedPoint(d: string, f: string)
    requires AllDigits(d) && AllDigits(f)
    ensures AllDigits(d + f)
    ensures CleanAmount(d + "." + f) == d + f
  {
    FixedPointHasNoSymbol(d, f);
    NoSymbolKept(d + "." + f);
    FixedPointLosesPoint(d, f);
    DigitsKept(d + f);
  }

  /** A text without an `R` keeps no currency symbol to delete. */
  lemma NoSymbolKept(s: string)
    requires 'R' !in s
    ensures ReplaceFirst(ReplaceFirst(s, "R$ ", ""), "R$", "") == s
  {
    IndexOfAbsent(s, "R$ ");
    IndexOfAbsent(s, "R$");
  }

  lemma FixedPointHasNoSymbol(d: string, f: string)
    requires AllDigits(d) && AllDigits(f)
    ensures 'R' !in d + "." + f
  {
    DigitsHaveNo(d, 'R');
    DigitsHaveNo(f, 'R');
  }

  /** Deleting points from fixed-point text joins its two digit runs. */
  lemma FixedPointLosesPoint(d: string, f: string)
    requires AllDigits(d) && AllDigits(f)
    ensures AllDigits(d + f)
    ensures RemoveAll(d + "." + f, '.') == d + f
  {
    DigitsHaveNo(d, '.');
    DigitsHaveNo(f, '.');
    RemovePointJoin(d, f);
  }

  /** Digits are left alone by the comma replacement and the trim. */
  lemma DigitsKept(s: string)
    requires AllDigits(s)
    ensures ReplaceFirst(s, ",", ".") == s && Trim(s) == s
  {
    DigitsHaveNo(s, ',');
    IndexOfAbsent(s, ",");
    assert NoJsSpace(s);
  }

  /** A whole number of reais in cents. */
  lemma WholeReais(n: nat)
    ensures ToCents(Decimal(false, n, 0, 0)) == 100 * n
  {
    assert Pow10(2) == 100;
  }

  /** A point is always taken for a thousands separator, so an amount
      already written the way `toFixed(2)` writes it is read as a hundred
      times larger: "123.45" becomes 12345 reais. */
  lemma PointReadAsThousands(c: nat)
    requires c > 0
    ensures NormalizeAmount(FormatCents(c)) == Some(100 * c)
  {
    FixedPointParses(c);
    WholeReais(c);
    CentsOf(FormatCents(c), Decimal(false, c, 0, 0));
  }

  lemma FixedPointParses(c: nat)
    ensures ParseFloat(CleanAmount(FormatCents(c))) == Some(Decimal(false, c, 0, 0))
  {
    var d, f := DecimalString(c / 100), TwoDigits(c % 100);
    FormatCentsSpelled(c);
    CleanFixedPoint(d, f);
    ParseWhole(d + f);
  }

  /** `toFixed(2)` text is the whole reais, a point and two digits of
      centavos, whose digits together read as the cents. */
  lemma FormatCentsSpelled(c: nat)
    ensures FormatCents(c) == DecimalString(c / 100) + "." + TwoDigits(c % 100)
    ensures AllDigits(DecimalString(c / 100) + TwoDigits(c % 100))
    ensures DigitsValue(DecimalString(c / 100) + TwoDigits(c % 100)) == c
  {
    var d, f := DecimalString(c / 100), TwoDigits(c % 100);
    DigitsValueAppend(d, f);
    CentsSplit(c);
  }

  /** A positive amount below half a centavo passes the check and is
      written as "0.00"; the corrected check rejects it. `ZerosCommaReads`
      gives such amounts: "0,004" reads as 4 in units of 10^-3. */
  lemma SubCentAmount(valor: string, v: nat, n: nat)
    requires ParseFloat(CleanAmount(valor)) == Some(Decimal(false, v, n, 0))
    requires n >= 3 && 0 < v && 2 * v < Pow10(n - 2)
    ensures AmountTextAsWritten(valor) == Some("0.00")
    ensures NormalizeAmount(valor).None?
  {
    SubCentRounds(v, n);
    CentsOf(valor, Decimal(false, v, n, 0));
    ZeroCentsText();
  }

  /** Zeros, a comma and digits read as those digits' value in units of
      their last place. */
  lemma ZerosCommaReads(w: string, f: string)
    requires |w| > 0 && AllDigits(w) && ZeroDigitsOnly(w) && AllDigits(f)
    ensures ParseFloat(CleanAmount(w + "," + f)) == Some(Decimal(false, DigitsValue(f), |f|, 0))
  {
    assert AllDigits(w[1..]);
    CleanDecimalComma(w, f);
    ZerosPointParses(w, f);
  }

  /** Zeros, a point and digits read as those digits' value in units of
      their last place. */
  lemma ZerosPointParses(w: string, f: string)
    requires |w| > 0 && AllDigits(w) && ZeroDigitsOnly(w) && AllDigits(f)
    ensures ParseFloat(w + "." + f) == Some(Decimal(false, DigitsValue(f), |f|, 0))
  {
    ParseFixedPoint(w, f);
    LeadingZeros(w, f);
  }

  /** Zeros in front of digits do not change their value. */
  lemma LeadingZeros(w: string, f: string)
    requires AllDigits(w) && ZeroDigitsOnly(w) && AllDigits(f)
    ensures AllDigits(w + f) && DigitsValue(w + f) == DigitsValue(f)
  {
    AllZerosValue(w);
    DigitsValueAppend(w, f);
  }

  /** Fewer than half a cent round to no cents. */
  lemma SubCentRounds(v: nat, n: nat)
    requires n >= 3 && 2 * v < Pow10(n - 2)
    ensures ToCents(Decimal(false, v, n, 0)) == 0
  {
    var d := Decimal(false, v, n, 0);
    BelowHalf(v, Pow10(n - 2), ToCents(d));
  }

  /** Rounding to the nearest whole gives 0 below one half. */
  lemma BelowHalf(n: nat, q: nat, c: nat)
    requires q >= 1 && 2 * n < q && 2 * c * q <= 2 * n + q
    ensures c == 0
  {
    AtLeastOnce(c, q);
    assert 2 * c * q == 2 * (c * q);
  }

  /** A positive multiple of `q` is at least `q`. */
  lemma AtLeastOnce(c: nat, q: nat)
    ensures c == 0 || c * q >= q
  {
    if c > 0 {
      assert c * q == (c - 1) * q + q;
    }
  }
}

=== FILE: crc16.dfy ===
/** CRC-16/CCITT-FALSE as the Pix payload builder computes it: polynomial
    0x1021, initial register 0xFFFF, most significant bit first, no
    reflection, no final XOR, rendered as four upper-case hexadecimal digits.

    `Register` is the textbook 16-bit register. `JsRegister` is the builder's
    loop as JavaScript runs it: `<<` works on 32-bit integers, the register is
    never cut back to 16 bits inside the loop, and only the result is masked
    with `0xFFFF`. The two agree (the contract of `JsRegister`). */
module Crc16 {
  import opened Strings

  const Poly: bv16 := 0x1021
  const Init: bv16 := 0xFFFF

  // ---------------------------------------------------------------------
  // The 16-bit register
  // ---------------------------------------------------------------------

  /** One bit of the division: shift left, and subtract the polynomial when
      the bit shifted out was set. */
  function Step(r: bv16): bv16 {
    if r & 0x8000 != 0 then (r << 1) ^ Poly else r << 1
  }

  function Steps(r: bv16, n: nat): bv16 {
    if n == 0 then r else Step(Steps(r, n - 1))
  }

  /** The low eight bits of a character's code, the only part of it that
      reaches the 16-bit register. */
  function LowByte(c: char): bv16 {
    ((c as bv32) & 0xFF) as bv16
  }

  /** One character: its low byte XORed into the high half, then eight steps. */
  function Feed(r: bv16, c: char): bv16 {
    Steps(r ^ (LowByte(c) << 8), 8)
  }

  /** The register after the whole of `data`. */
  function Register(data: string): bv16 {
    if |data| == 0 then Init else Feed(Register(data[..|data| - 1]), data[|data| - 1])
  }

  // ---------------------------------------------------------------------
  // The register as JavaScript keeps it
  // ---------------------------------------------------------------------

  /** One pass of the inner loop on JavaScript's 32-bit register, which is
      never masked: reduced to its low 16 bits it is one 16-bit `Step`, since
      bit 15 is read from the low half only and no higher bit ever moves
      down. */
  function JsStep(x: bv32): (y: bv32)
    ensures Low16(y) == Step(Low16(x))
  {
    if x & 0x8000 != 0 then
      assert Low16(x) & 0x8000 != 0;
      JsStepLow16High(x);
      (x << 1) ^ 0x1021
    else
      assert Low16(x) & 0x8000 == 0;
      JsStepLow16Low(x);
      x << 1
  }

  /** `n` passes of the inner loop. */
  function JsSteps(x: bv32, n: nat): bv32 {
    if n == 0 then x else JsStep(JsSteps(x, n - 1))
  }

  /** `crc ^= data.charCodeAt(i) << 8` followed by the eight unmasked steps:
      on the low 16 bits, one `Feed` of the 16-bit register. */
  function JsFeed(x: bv32, c: char): (y: bv32)
    ensures Low16(y) == Feed(Low16(x), c)
  {
    JsStepsFeed(x, c);
    JsSteps(x ^ ((c as bv32) << 8), 8)
  }

  /** The register of the builder's loop before the final mask. JavaScript's
      register may carry bits above 15, but they never influence the low 16:
      masking once at the end gives the 16-bit register. */
  function JsRegister(data: string): (x: bv32)
    ensures Low16(x) == Register(data)
  {
    if |data| == 0 then 0xFFFF else JsFeed(JsRegister(data[..|data| - 1]), data[|data| - 1])
  }

  /** `crc & 0xFFFF`. */
  function Low16(x: bv32): bv16 {
    (x & 0xFFFF) as bv16
  }

  lemma JsStepLow16High(x: bv32)
    requires x & 0x8000 != 0
    ensures Low16((x << 1) ^ 0x1021) == (Low16(x) << 1) ^ Poly
  {
  }

  lemma JsStepLow16Low(x: bv32)
    requires x & 0x8000 == 0
    ensures Low16(x << 1) == Low16(x) << 1
  {
  }

  lemma XorShiftedLow16(x: bv32, k: bv32)
    ensures Low16(x ^ (k << 8)) == Low16(x) ^ (((k & 0xFF) as bv16) << 8)
  {
  }

  /** `n` passes of the inner loop, reduced to their low 16 bits, are `n`
      16-bit steps. */
  lemma {:induction false} JsStepsLow16(x: bv32, n: nat)
    ensures Low16(JsSteps(x, n)) == Steps(Low16(x), n)
  {
    if n > 0 {
      JsStepsLow16(x, n - 1);
    }
  }

  lemma JsStepsXorLow16(x: bv32, k: bv32, n: nat)
    ensures Low16(JsSteps(x ^ (k << 8), n)) == Steps(Low16(x) ^ (((k & 0xFF) as bv16) << 8), n)
  {
    XorShiftedLow16(x, k);
    JsStepsLow16(x ^ (k << 8), n);
  }

  /** The eight unmasked steps after a character is XORed in, on the low
      16 bits, are one `Feed`. */
  lemma JsStepsFeed(x: bv32, c: char)
    ensures Low16(JsSteps(x ^ ((c as bv32) << 8), 8)) == Feed(Low16(x), c)
  {
    JsStepsXorLow16(x, c as bv32, 8);
    FeedSpelled(Low16(x), c);
  }

  lemma FeedSpelled(r: bv16, c: char)
    ensures Feed(r, c) == Steps(r ^ ((((c as bv32) & 0xFF) as bv16) << 8), 8)
  {
  }

  /** The checksum text the builder appends:
      `crc.toString(16).toUpperCase().padStart(4, '0')` on the masked
      JavaScript register. It is always four upper-case hexadecimal digits,
      and they spell the 16-bit CRC of `data`. */
  function CrcText(data: string): (r: string)
    ensures |r| == 4
    ensures forall i :: 0 <= i < 4 ==> IsUpperHex(r[i])
    ensures HexValue(r) == Register(data) as int
  {
    UpperHex4(Low16(JsRegister(data)) as int)
  }

  // ---------------------------------------------------------------------
  // Properties of the checksum
  // ---------------------------------------------------------------------

  /** Different registers are spelled by different texts. */
  lemma CrcTextDistinguishes(a: string, b: string)
    requires Register(a) != Register(b)
    ensures CrcText(a) != CrcText(b)
  {
    var x, y := Register(a), Register(b);
    assert (x as int) as bv16 == x && (y as int) as bv16 == y;
  }

  /** Two texts whose characters agree in their low bytes have the same
      CRC: the high byte of a character code never reaches the register. */
  lemma {:induction false} LowBytesDecide(a: string, b: string)
    requires |a| == |b|
    requires forall i :: 0 <= i < |a| ==> LowByte(a[i]) == LowByte(b[i])
    ensures Register(a) == Register(b)
    decreases |a|
  {
    if |a| > 0 {
      var n := |a| - 1;
      assert forall i :: 0 <= i < n ==> a[..n][i] == a[i] && b[..n][i] == b[i];
      LowBytesDecide(a[..n], b[..n]);
      FeedLowByte(Register(a[..n]), a[n], b[n]);
    }
  }

  /** Only the low byte of a character reaches the register. */
  lemma FeedLowByte(r: bv16, c: char, d: char)
    requires LowByte(c) == LowByte(d)
    ensures Feed(r, c) == Feed(r, d)
  {
  }

  /** Undoes one `Step`: the polynomial's lowest bit is set, so the lowest
      bit of the result tells whether it was subtracted. */
  function Unstep(v: bv16): bv16 {
    if v & 1 != 0 then ((v ^ Poly) >> 1) | 0x8000 else v >> 1
  }

  lemma UnstepHigh(x: bv16)
    requires x & 0x8000 != 0
    ensures Unstep((x << 1) ^ Poly) == x
  {
    assert ((x << 1) ^ Poly) & 1 != 0;
    assert ((((x << 1) ^ Poly) ^ Poly) >> 1) | 0x8000 == x;
  }

  lemma UnstepLow(x: bv16)
    requires x & 0x8000 == 0
    ensures Unstep(x << 1) == x
  {
    assert (x << 1) & 1 == 0;
    assert (x << 1) >> 1 == x;
  }

  lemma UnstepStep(x: bv16)
    ensures Unstep(Step(x)) == x
  {
    if x & 0x8000 != 0 {
      UnstepHigh(x);
    } else {
      UnstepLow(x);
    }
  }

  lemma {:induction false} StepsInjective(x: bv16, y: bv16, n: nat)
    requires Steps(x, n) == Steps(y, n)
    ensures x == y
  {
    if n > 0 {
      UnstepStep(Steps(x, n - 1));
      UnstepStep(Steps(y, n - 1));
      StepsInjective(x, y, n - 1);
    }
  }

  lemma ShiftByteInjective(a: bv16, b: bv16)
    requires a <= 0xFF && b <= 0xFF && a << 8 == b << 8
    ensures a == b
  {
  }

  lemma LowByteBound(c: char)
    ensures LowByte(c) <= 0xFF
  {
  }

  /** Different registers stay different after the same character. */
  lemma FeedInjectiveRegister(r: bv16, s: bv16, c: char)
    requires r != s
    ensures Feed(r, c) != Feed(s, c)
  {
    if Feed(r, c) == Feed(s, c) {
      StepsInjective(r ^ (LowByte(c) << 8), s ^ (LowByte(c) << 8), 8);
      assert false;
    }
  }

  /** From the same register, characters with different low bytes lead to
      different registers. */
  lemma FeedInjectiveByte(r: bv16, c: char, d: char)
    requires LowByte(c) != LowByte(d)
    ensures Feed(r, c) != Feed(r, d)
  {
    if Feed(r, c) == Feed(r, d) {
      StepsInjective(r ^ (LowByte(c) << 8), r ^ (LowByte(d) << 8), 8);
      LowByteBound(c);
      LowByteBound(d);
      ShiftByteInjective(LowByte(c), LowByte(d));
      assert false;
    }
  }

  lemma {:induction false} DifferenceSurvives(a: string, b: string, k: nat, n: nat)
    requires |a| == |b| && k < n <= |a|
    requires forall i :: 0 <= i < |a| && i != k ==> a[i] == b[i]
    requires LowByte(a[k]) != LowByte(b[k])
    ensures Register(a[..n]) != Register(b[..n])
    decreases n
  {
    if n == k + 1 {
      DifferenceStarts(a, b, k);
    } else {
      DifferenceSurvives(a, b, k, n - 1);
      DifferenceCarries(a, b, n);
    }
  }

  /** The registers part at the changed character. */
  lemma DifferenceStarts(a: string, b: string, k: nat)
    requires |a| == |b| && k < |a|
    requires forall i :: 0 <= i < |a| && i != k ==> a[i] == b[i]
    requires LowByte(a[k]) != LowByte(b[k])
    ensures Register(a[..k + 1]) != Register(b[..k + 1])
  {
    PrefixStep(a, k + 1);
    PrefixStep(b, k + 1);
    SamePrefix(a, b, k);
    FeedInjectiveByte(Register(a[..k]), a[k], b[k]);
  }

  /** Parted registers stay parted when both are fed the same character. */
  lemma DifferenceCarries(a: string, b: string, n: nat)
    requires |a| == |b| && 0 < n <= |a| && a[n - 1] == b[n - 1]
    requires Register(a[..n - 1]) != Register(b[..n - 1])
    ensures Register(a[..n]) != Register(b[..n])
  {
    PrefixStep(a, n);
    PrefixStep(b, n);
    FeedInjectiveRegister(Register(a[..n - 1]), Register(b[..n - 1]), a[n - 1]);
  }

  /** Texts that agree everywhere but at `k` agree before it. */
  lemma SamePrefix(a: string, b: string, k: nat)
    requires |a| == |b| && k < |a|
    requires forall i :: 0 <= i < |a| && i != k ==> a[i] == b[i]
    ensures a[..k] == b[..k]
  {
    assert forall i :: 0 <= i < k ==> a[..k][i] == b[..k][i];
  }

  /** The register after `n` characters feeds the `n`-th into the register
      after the ones before it. */
  lemma PrefixStep(a: string, n: nat)
    requires 0 < n <= |a|
    ensures Register(a[..n]) == Feed(Register(a[..n - 1]), a[n - 1])
  {
    assert a[..n][..n - 1] == a[..n - 1];
  }

  /** Changing one character (in its low byte) always changes the CRC. */
  lemma SingleChangeDetected(a: string, b: string, k: nat)
    requires |a| == |b| && k < |a|
    requires forall i :: 0 <= i < |a| && i != k ==> a[i] == b[i]
    requires LowByte(a[k]) != LowByte(b[k])
    ensures Register(a) != Register(b)
  {
    DifferenceSurvives(a, b, k, |a|);
    assert a[..|a|] == a && b[..|b|] == b;
  }

  // ---------------------------------------------------------------------
  // The standard check value
  // ---------------------------------------------------------------------

  lemma Unroll8(r: bv16)
    ensures Steps(r, 8) == Step(Step(Step(Step(Step(Step(Step(Step(r))))))))
  {
    assert Steps(r, 1) == Step(r);
    assert Steps(r, 2) == Step(Steps(r, 1));
    assert Steps(r, 3) == Step(Steps(r, 2));
    assert Steps(r, 4) == Step(Steps(r, 3));
    assert Steps(r, 5) == Step(Steps(r, 4));
    assert Steps(r, 6) == Step(Steps(r, 5));
    assert Steps(r, 7) == Step(Steps(r, 6));
  }

  /** The published check value of CRC-16/CCITT-FALSE: the CRC of the ASCII
      text "123456789" is 0x29B1. */
  lemma CheckValue()
    ensures Register("123456789") == 0x29B1
  {
    forall i | 0 <= i < 9
      ensures Feed(CheckRegisters[i], "123456789"[i]) == CheckRegisters[i + 1]
    {
      CheckStep(i);
    }
    RegisterChain("123456789", CheckRegisters);
  }

  /** The register follows any chain of values that each character feeds
      into the next. */
  lemma {:induction false} RegisterChain(text: string, regs: seq<bv16>)
    requires |regs| == |text| + 1 && regs[0] == Init
    requires forall i :: 0 <= i < |text| ==> Feed(regs[i], text[i]) == regs[i + 1]
    ensures Register(text) == regs[|text|]
    decreases |text|
  {
    if |text| > 0 {
      var n := |text| - 1;
      assert forall i :: 0 <= i < n ==> text[..n][i] == text[i] && regs[..n + 1][i] == regs[i];
      RegisterChain(text[..n], regs[..n + 1]);
    }
  }

  /** The register before and after each of the nine characters of
      "123456789". */
  const CheckRegisters: seq<bv16> := [0xFFFF, 0xC782, 0x3DBA, 0x5BCE, 0x5349, 0x4560, 0x2EF4, 0x7718, 0xA12B, 0x29B1]

  lemma CheckStep(i: nat)
    requires i < 9
    ensures Feed(CheckRegisters[i], "123456789"[i]) == CheckRegisters[i + 1]
  {
    if i < 3 {
      CheckStepFirst(i);
    } else if i < 6 {
      CheckStepMiddle(i);
    } else {
      CheckStepLast(i);
    }
  }

  lemma CheckStepFirst(i: nat)
    requires i < 3
    ensures Feed(CheckRegisters[i], "123456789"[i]) == CheckRegisters[i + 1]
  {
    if i == 0 {
      Feed1();
    } else if i == 1 {
      Feed2();
    } else {
      Feed3();
    }
  }

  lemma CheckStepMiddle(i: nat)
    requires 3 <= i < 6
    ensures Feed(CheckRegisters[i], "123456789"[i]) == CheckRegisters[i + 1]
  {
    if i == 3 {
      Feed4();
    } else if i == 4 {
      Feed5();
    } else {
      Feed6();
    }
  }

  lemma CheckStepLast(i: nat)
    requires 6 <= i < 9
    ensures Feed(CheckRegisters[i], "123456789"[i]) == CheckRegisters[i + 1]
  {
    if i == 6 {
      Feed7();
    } else if i == 7 {
      Feed8();
    } else {
      Feed9();
    }
  }

  lemma Feed1()
    ensures Feed(0xFFFF, '1') == 0xC782
  {
    Unroll8(0xFFFF ^ (LowByte('1') << 8));
  }

  lemma Feed2()
    ensures Feed(0xC782, '2') == 0x3DBA
  {
    Unroll8(0xC782 ^ (LowByte('2') << 8));
  }

  lemma Feed3()
    ensures Feed(0x3DBA, '3') == 0x5BCE
  {
    Unroll8(0x3DBA ^ (LowByte('3') << 8));
  }

  lemma Feed4()
    ensures Feed(0x5BCE, '4') == 0x5349
  {
    Unroll8(0x5BCE ^ (LowByte('4') << 8));
  }

  lemma Feed5()
    ensures Feed(0x5349, '5') == 0x4560
  {
    Unroll8(0x5349 ^ (LowByte('5') << 8));
  }

  lemma Feed6()
    ensures Feed(0x4560, '6') == 0x2EF4
  {
    Unroll8(0x4560 ^ (LowByte('6') << 8));
  }

  lemma Feed7()
    ensures Feed(0x2EF4, '7') == 0x7718
  {
    Unroll8(0x2EF4 ^ (LowByte('7') << 8));
  }

  lemma Feed8()
    ensures Feed(0x7718, '8') == 0xA12B
  {
    Unroll8(0x7718 ^ (LowByte('8') << 8));
  }

  lemma Feed9()
    ensures Feed(0xA12B, '9') == 0x29B1
  {
    Unroll8(0xA12B ^ (LowByte('9') << 8));
  }
}

=== FILE: outcomes.dfy ===
/** Optional values and error-carrying results, standing in for JavaScript's
    `null`/`undefined` and for the exceptions the payload builder throws. */
module Outcomes {

  /** A value that may be absent (`null` or `undefined` in the source). */
  datatype Option<+T> = None | Some(value: T)

  /** Either a computed value or the error the source would have thrown. */
  datatype Result<+T, +E> = Ok(value: T) | Err(error: E)
}

=== FILE: pix.dfy ===
/** The Pix "copy and paste" code (BR Code) the payment API hands out: a
    run of ID–Length–Value data objects in a fixed order, closed by a CRC
    object over everything before its value.

    `PayloadAsWritten` follows the builder character by character;
    `GeneratePix` is the builder with the checks its format needs, and the
    properties are proved about it. */
module Pix {
  import opened Outcomes
  import opened Strings
  import opened Tlv
  import opened Crc16
  import opened Amount

  /** Why no payload is produced. The builder throws one error for a key
      that is missing and for one that is too short. */
  datatype PixError = InvalidAmount | InvalidKey | FieldTooLong

  /** The globally unique identifier of the Pix arrangement (ID 00 of the
      merchant account template). */
  const PixGui: string := "BR.GOV.BCB.PIX"
  const MinKeyLength: nat := 11
  /** The longest key whose merchant account template (22 characters plus
      the key) still fits a two-digit length. */
  const MaxKeyLength: nat := 77
  const ReferenceLength: nat := 8
  const DefaultReference: string := "IPVA2026"
  /** The value of ID 07 of the additional data template. */
  const TerminalLabel: string := "03***"
  /** The payee the builder always writes. */
  const MerchantName: string := "DETRAN PARANA"
  const MerchantCity: string := "CURITIBA"

  // ---------------------------------------------------------------------
  // Inputs
  // ---------------------------------------------------------------------

  /** `!chavePix || chavePix.length < 11` fails: a key is present and has at
      least eleven characters. */
  predicate KeyAccepted(key: Option<string>) {
    key.Some? && |key.value| >= MinKeyLength
  }

  /** `renavam && renavam !== 'N/A'`: a reference the builder writes. */
  predicate HasReference(reference: Option<string>) {
    reference.Some? && reference.value != "" && reference.value != "N/A"
  }

  /** `s.substring(0, n)` for a non-negative `n`. */
  function Truncate(s: string, n: nat): (r: string)
    ensures |r| == if |s| <= n then |s| else n
    ensures r == s[..|r|]
  {
    if |s| <= n then s else s[..n]
  }

  /** The reference written under ID 05 of the additional data template:
      the first eight characters of the vehicle's RENAVAM, or "IPVA2026"
      when there is none. */
  function ReferenceLabel(reference: Option<string>): (r: string)
    ensures |r| <= ReferenceLength
    ensures HasReference(reference) ==>
      |r| <= |reference.value| && r == reference.value[..|r|]
      && (r == reference.value || |r| == ReferenceLength)
    ensures !HasReference(reference) ==> r == DefaultReference
  {
    if HasReference(reference) then Truncate(reference.value, ReferenceLength) else DefaultReference
  }

  // ---------------------------------------------------------------------
  // Templates and the payload
  // ---------------------------------------------------------------------

  /** The merchant account template (ID 26): the arrangement's identifier
      and the key, 22 characters longer than the key. */
  function MerchantAccount(key: string): (r: string)
    requires |key| <= 99
    ensures |r| == 22 + |key|
  {
    Template("00", PixGui, "01", key)
  }

  /** The additional data template (ID 62): the reference label and the
      fixed terminal label, 13 characters longer than the reference. */
  function AdditionalData(refLabel: string): (r: string)
    requires |refLabel| <= ReferenceLength
    ensures |r| == 13 + |refLabel|
  {
    Template("05", refLabel, "07", TerminalLabel)
  }

  /** A template of two data objects, 8 characters longer than their
      values. */
  function Template(id1: string, v1: string, id2: string, v2: string): (r: string)
    requires ValidId(id1) && ValidId(id2) && |v1| <= 99 && |v2| <= 99
    ensures |r| == 8 + |v1| + |v2|
  {
    Field(id1, v1) + Field(id2, v2)
  }

  /** A template reads back as its two data objects. */
  lemma TemplateParses(id1: string, v1: string, id2: string, v2: string)
    requires ValidId(id1) && ValidId(id2) && |v1| <= 99 && |v2| <= 99
    ensures Parse(Template(id1, v1, id2, v2)) == Some([DataObject(id1, v1), DataObject(id2, v2)])
  {
    var objs := [DataObject(id1, v1), DataObject(id2, v2)];
    assert AllEncodable(objs);
    ParseSerialize(objs);
    SerializeFrom(objs, 0);
    SerializeFrom(objs, 1);
    assert objs[1..] == [objs[1]] && objs[2..] == [];
    var f2 := Field(id2, v2);
    assert Serialize(objs[1..]) == f2 + "" == f2;
    assert Serialize(objs) == Field(id1, v1) + f2;
  }

  lemma MerchantAccountParses(key: string)
    requires |key| <= 99
    ensures Parse(MerchantAccount(key)) == Some([DataObject("00", PixGui), DataObject("01", key)])
  {
    TemplateParses("00", PixGui, "01", key);
  }

  lemma AdditionalDataParses(refLabel: string)
    requires |refLabel| <= ReferenceLength
    ensures Parse(AdditionalData(refLabel)) == Some([DataObject("05", refLabel), DataObject("07", TerminalLabel)])
  {
    TemplateParses("05", refLabel, "07", TerminalLabel);
  }

  /** The lengths that fit two-digit length fields. */
  predicate Fits(amount: string, key: string, name: string, city: string) {
    |amount| <= 99 && |key| <= MaxKeyLength && |name| <= 99 && |city| <= 99
  }

  /** The data objects of the payload before the CRC, in the builder's
      order: format indicator, merchant account, category code, currency,
      amount, country, name, city, additional data. */
  function PayloadObjects(amount: string, key: string, refLabel: string, name: string, city: string): (r: seq<DataObject>)
    requires Fits(amount, key, name, city) && |refLabel| <= ReferenceLength
    ensures |r| == 9 && AllEncodable(r)
    ensures r[1] == DataObject("26", MerchantAccount(key))
    ensures r[4] == DataObject("54", amount)
    ensures r[8] == DataObject("62", AdditionalData(refLabel))
  {
    var mai, additional := MerchantAccount(key), AdditionalData(refLabel);
    var r :=
      [ DataObject("00", "01"), DataObject("26", mai), DataObject("52", "0000")
      , DataObject("53", "986"), DataObject("54", amount), DataObject("58", "BR")
      , DataObject("59", name), DataObject("60", city), DataObject("62", additional) ];
    assert AllEncodable(r) by {
      PayloadIds();
    }
    r
  }

  lemma PayloadIds()
    ensures ValidId("00") && ValidId("26") && ValidId("52") && ValidId("53") && ValidId("54")
    ensures ValidId("58") && ValidId("59") && ValidId("60") && ValidId("62")
  {
  }

  /** ID and length of the CRC object, which the checksum covers. */
  const CrcHeader: string := "6304"

  /** A text whose last four characters are the CRC of everything before
      them, as a reader of the code checks it. */
  predicate CrcValid(p: string) {
    |p| >= 4 && p[|p| - 4..] == CrcText(p[..|p| - 4])
  }

  /** A text followed by its CRC. */
  function Close(body: string): (r: string)
    ensures CrcValid(r)
    ensures r[..|r| - 4] == body
    ensures HexValue(r[|r| - 4..]) == Register(body) as int
  {
    var r := body + CrcText(body);
    assert r[..|r| - 4] == body && r[|r| - 4..] == CrcText(body);
    r
  }

  /** Data objects closed by the CRC object. */
  function Seal(objs: seq<DataObject>): (r: string)
    requires AllEncodable(objs)
    ensures CrcValid(r)
    ensures r[..|r| - 4] == Serialize(objs) + CrcHeader
  {
    Close(Serialize(objs) + CrcHeader)
  }

  /** The payload for an amount in cents, a key, a reference label and a
      payee. */
  function Build(cents: nat, key: string, refLabel: string, name: string, city: string): string
    requires Fits(FormatCents(cents), key, name, city) && |refLabel| <= ReferenceLength
  {
    Seal(PayloadObjects(FormatCents(cents), key, refLabel, name, city))
  }

  /** The builder: the amount is checked first, then the key, then that
      every length fits its two digits. */
  function GeneratePix(valor: string, key: Option<string>, reference: Option<string>, name: string, city: string)
    : (r: Result<string, PixError>)
    ensures r == Err(InvalidAmount) <==> NormalizeAmount(valor).None?
    ensures r == Err(InvalidKey) <==> NormalizeAmount(valor).Some? && !KeyAccepted(key)
    ensures r.Ok? <==>
      && NormalizeAmount(valor).Some? && KeyAccepted(key)
      && Fits(FormatCents(NormalizeAmount(valor).value), key.value, name, city)
    ensures r.Ok? ==> CrcValid(r.value)
  {
    match NormalizeAmount(valor)
    case None => Err(InvalidAmount)
    case Some(cents) =>
      if !KeyAccepted(key) then Err(InvalidKey)
      else if !Fits(FormatCents(cents), key.value, name, city) then Err(FieldTooLong)
      else Ok(Build(cents, key.value, ReferenceLabel(reference), name, city))
  }

  // ---------------------------------------------------------------------
  // What a reader of the payload sees
  // ---------------------------------------------------------------------

  lemma SerializeFrom(objs: seq<DataObject>, k: nat)
    requires AllEncodable(objs) && k < |objs|
    ensures AllEncodable(objs[k..]) && AllEncodable(objs[k + 1..])
    ensures Serialize(objs[k..]) == Field(objs[k].id, objs[k].value) + Serialize(objs[k + 1..])
  {
    assert objs[k..][0] == objs[k];
    assert objs[k..][1..] == objs[k + 1..];
    assert AllEncodable(objs[k..]) by {
      forall i | 0 <= i < |objs[k..]|
        ensures Encodable(objs[k..][i])
      {
        assert objs[k..][i] == objs[k + i];
      }
    }
  }

  /** The CRC object is the header followed by the four hexadecimal digits. */
  lemma CrcField(crc: string)
    requires |crc| == 4
    ensures Field("63", crc) == CrcHeader + crc
  {
    FieldSpelled("63", crc, "04");
  }

  /** Data objects followed by a CRC object with any four characters read
      back as those data objects and the CRC object. */
  lemma SealedParses(objs: seq<DataObject>, crc: string)
    requires AllEncodable(objs) && |crc| == 4
    ensures Encodable(DataObject("63", crc))
    ensures Parse(Serialize(objs) + CrcHeader + crc) == Some(objs + [DataObject("63", crc)])
  {
    var last := DataObject("63", crc);
    CrcSerialized(crc);
    SerializeAppend(objs, [last]);
    ParseSerialize(objs + [last]);
    Regroup(Serialize(objs), CrcHeader, crc);
  }


  /** The CRC object written on its own. */
  lemma CrcSerialized(crc: string)
    requires |crc| == 4
    ensures AllEncodable([DataObject("63", crc)])
    ensures Serialize([DataObject("63", crc)]) == CrcHeader + crc
  {
    var last := DataObject("63", crc);
    assert Encodable(last);
    CrcField(crc);
    SerializeFrom([last], 0);
    assert [last][1..] == [];
  }

  /** A sealed payload reads back as its data objects followed by the CRC
      object. */
  lemma SealParses(objs: seq<DataObject>)
    requires AllEncodable(objs)
    ensures var p := Seal(objs);
      var crc := DataObject("63", p[|p| - 4..]);
      && Encodable(crc)
      && Parse(p) == Some(objs + [crc])
  {
    var p := Seal(objs);
    var crc := p[|p| - 4..];
    assert p == p[..|p| - 4] + crc;
    SealedParses(objs, crc);
  }

  /** A payload the builder produces reads back as the nine data objects in
      order followed by the CRC object; the merchant account and additional
      data templates read back as their own data objects; and the amount
      object reads back as the amount in cents. */
  lemma GeneratedPayloadParses(valor: string, key: Option<string>, reference: Option<string>, name: string, city: string)
    requires GeneratePix(valor, key, reference, name, city).Ok?
    ensures var p := GeneratePix(valor, key, reference, name, city).value;
      var cents := NormalizeAmount(valor).value;
      var objs := PayloadObjects(FormatCents(cents), key.value, ReferenceLabel(reference), name, city);
      && Parse(p) == Some(objs + [DataObject("63", p[|p| - 4..])])
      && Parse(objs[1].value) == Some([DataObject("00", PixGui), DataObject("01", key.value)])
      && Parse(objs[8].value) == Some([DataObject("05", ReferenceLabel(reference)), DataObject("07", TerminalLabel)])
      && ParseFloat(objs[4].value) == Some(Decimal(false, cents, 2, 0))
      && ToCents(ParseFloat(objs[4].value).value) == cents
  {
    var cents := NormalizeAmount(valor).value;
    var objs := PayloadObjects(FormatCents(cents), key.value, ReferenceLabel(reference), name, city);
    SealParses(objs);
    MerchantAccountParses(key.value);
    AdditionalDataParses(ReferenceLabel(reference));
    FormatCentsReadsBack(cents);
  }

  /** The IDs of the data objects of every payload, in order. */
  const PayloadTags: seq<string> := ["00", "26", "52", "53", "54", "58", "59", "60", "62", "63"]

  /** A reader of a generated payload finds the IDs in the fixed order, the
      same format indicator, category code, currency and country whatever
      the input, the payee as given, a merchant account of 22 characters
      plus the key and additional data of 13 characters plus the reference
      label, and the four CRC digits last. */
  lemma GeneratedPayloadOrder(valor: string, key: Option<string>, reference: Option<string>, name: string, city: string)
    requires GeneratePix(valor, key, reference, name, city).Ok?
    ensures var p := GeneratePix(valor, key, reference, name, city).value;
      && Parse(p).Some? && |Parse(p).value| == |PayloadTags|
      && (forall i :: 0 <= i < |PayloadTags| ==> Parse(p).value[i].id == PayloadTags[i])
      && Parse(p).value[0].value == "01" && Parse(p).value[2].value == "0000"
      && Parse(p).value[3].value == "986" && Parse(p).value[5].value == "BR"
      && Parse(p).value[6].value == name && Parse(p).value[7].value == city
      && |Parse(p).value[1].value| == 22 + |key.value|
      && |Parse(p).value[8].value| == 13 + |ReferenceLabel(reference)|
      && Parse(p).value[9].value == p[|p| - 4..]
  {
    var p := GeneratePix(valor, key, reference, name, city).value;
    var cents := NormalizeAmount(valor).value;
    GeneratedPayloadParses(valor, key, reference, name, city);
    PayloadOrder(FormatCents(cents), key.value, ReferenceLabel(reference), name, city, p[|p| - 4..]);
  }

  /** The nine data objects and the CRC object, ID by ID. */
  lemma PayloadOrder(amount: string, key: string, refLabel: string, name: string, city: string, crc: string)
    requires Fits(amount, key, name, city) && |refLabel| <= ReferenceLength
    ensures var s := PayloadObjects(amount, key, refLabel, name, city) + [DataObject("63", crc)];
      && |s| == |PayloadTags|
      && (forall i :: 0 <= i < |PayloadTags| ==> s[i].id == PayloadTags[i])
      && s[0].value == "01" && s[2].value == "0000" && s[3].value == "986" && s[5].value == "BR"
      && s[6].value == name && s[7].value == city
      && |s[1].value| == 22 + |key| && |s[8].value| == 13 + |refLabel| && s[9].value == crc
  {
  }

  /** Data objects that begin with the format indicator begin with
      "000201", whatever follows them. */
  lemma IndicatorFirst(objs: seq<DataObject>, tail: string)
    requires AllEncodable(objs) && |objs| > 0 && objs[0] == DataObject("00", "01")
    ensures |Serialize(objs) + tail| >= 6 && (Serialize(objs) + tail)[..6] == "000201"
  {
    SerializeHead(objs, tail);
    FormatIndicator();
    PrefixOfJoin(Field("00", "01"), Serialize(objs[1..]) + tail);
  }

  /** Serialized data objects followed by more text: the first field, then
      the rest. */
  lemma SerializeHead(objs: seq<DataObject>, tail: string)
    requires AllEncodable(objs) && |objs| > 0
    ensures Serialize(objs) + tail == Field(objs[0].id, objs[0].value) + (Serialize(objs[1..]) + tail)
  {
    Regroup(Field(objs[0].id, objs[0].value), Serialize(objs[1..]), tail);
  }

  lemma PrefixOfJoin(f: string, rest: string)
    ensures (f + rest)[..|f|] == f
  {
  }

  lemma SealStart(objs: seq<DataObject>)
    requires AllEncodable(objs) && |objs| > 0 && objs[0] == DataObject("00", "01")
    ensures |Seal(objs)| >= 6 && Seal(objs)[..6] == "000201"
  {
    var p := Seal(objs);
    IndicatorFirst(objs, CrcHeader);
    PrefixWithin(p, |p| - 4, 6);
  }

  lemma PrefixWithin(p: string, m: nat, k: nat)
    requires k <= m <= |p|
    ensures p[..m][..k] == p[..k]
  {
  }

  /** The payload begins with the payload format indicator "000201". */
  lemma GeneratedPayloadStart(valor: string, key: Option<string>, reference: Option<string>, name: string, city: string)
    requires GeneratePix(valor, key, reference, name, city).Ok?
    ensures GeneratePix(valor, key, reference, name, city).value[..6] == "000201"
  {
    var cents := NormalizeAmount(valor).value;
    SealStart(PayloadObjects(FormatCents(cents), key.value, ReferenceLabel(reference), name, city));
  }

  /** The checksum catches any one character changed before it, as long as
      the change reaches the character's low byte. */
  lemma CrcCatchesChange(p: string, q: string, k: nat)
    requires CrcValid(p) && |q| == |p| && k < |p| - 4
    requires forall i :: 0 <= i < |p| && i != k ==> p[i] == q[i]
    requires LowByte(p[k]) != LowByte(q[k])
    ensures !CrcValid(q)
  {
    OneChangeBeforeCrc(p, q, k);
    BodyChangeDetected(p[..|p| - 4], q[..|q| - 4], k);
    TailKeptInvalid(p, q);
  }

  /** One low-byte change in the text before the CRC digits changes their
      checksum text. */
  lemma BodyChangeDetected(a: string, b: string, k: nat)
    requires |a| == |b| && k < |a|
    requires forall i :: 0 <= i < |a| && i != k ==> a[i] == b[i]
    requires LowByte(a[k]) != LowByte(b[k])
    ensures CrcText(a) != CrcText(b)
  {
    SingleChangeDetected(a, b, k);
    CrcTextDistinguishes(a, b);
  }

  /** Keeping the CRC digits of a valid code while its body's checksum
      changes makes the code invalid. */
  lemma TailKeptInvalid(p: string, q: string)
    requires CrcValid(p) && |q| == |p|
    requires q[|q| - 4..] == p[|p| - 4..]
    requires CrcText(p[..|p| - 4]) != CrcText(q[..|q| - 4])
    ensures !CrcValid(q)
  {
  }

  /** Texts that differ in one character before their last four differ
      there in what the checksum covers and agree in their last four. */
  lemma OneChangeBeforeCrc(p: string, q: string, k: nat)
    requires |q| == |p| && k < |p| - 4
    requires forall i :: 0 <= i < |p| && i != k ==> p[i] == q[i]
    ensures var a, b := p[..|p| - 4], q[..|q| - 4];
      && |a| == |b| && a[k] == p[k] && b[k] == q[k]
      && (forall i :: 0 <= i < |a| && i != k ==> a[i] == b[i])
      && q[|q| - 4..] == p[|p| - 4..]
  {
    var n := |p| - 4;
    assert forall i :: 0 <= i < 4 ==> q[n..][i] == q[n + i] && p[n..][i] == p[n + i];
  }

  // ---------------------------------------------------------------------
  // The fixed texts the builder writes
  // ---------------------------------------------------------------------

  lemma FormatIndicator()
    ensures Field("00", "01") == "000201"
  {
    FieldSpelled("00", "01", "02");
  }

  lemma CategoryCode()
    ensures Field("52", "0000") == "52040000"
  {
    FieldSpelled("52", "0000", "04");
  }

  lemma Currency()
    ensures Field("53", "986") == "5303986"
  {
    FieldSpelled("53", "986", "03");
  }

  lemma Country()
    ensures Field("58", "BR") == "5802BR"
  {
    FieldSpelled("58", "BR", "02");
  }

  lemma Arrangement()
    ensures Field("00", PixGui) == "0014BR.GOV.BCB.PIX"
  {
    Fourteen();
    FieldSpelled("00", PixGui, "14");
  }

  lemma Fourteen()
    ensures |PixGui| == 14 && AllDigits("14") && DigitsValue("14") == 14
  {
    TwoDigitsValue("14");
  }

  lemma Terminal()
    ensures Field("07", TerminalLabel) == "070503***"
  {
    FieldSpelled("07", TerminalLabel, "05");
  }

  lemma DefaultLabel()
    ensures Field("05", DefaultReference) == "0508IPVA2026"
  {
    FieldSpelled("05", DefaultReference, "08");
  }

  /** Without a reference, the additional data template is the builder's
      fixed text. */
  lemma DefaultAdditionalData()
    ensures AdditionalData(DefaultReference) == "0508IPVA2026070503***"
    ensures |AdditionalData(DefaultReference)| == 21
  {
    DefaultLabel();
    Terminal();
    DefaultLiteral();
  }

  lemma DefaultLiteral()
    ensures "0508IPVA2026" + "070503***" == "0508IPVA2026070503***"
  {
  }

  // ---------------------------------------------------------------------
  // The builder as written
  // ---------------------------------------------------------------------

  /** `id + value.length.toString().padStart(2, '0') + value`, whatever the
      length: from 100 characters on the length takes three digits or more. */
  function FieldAsWritten(id: string, value: string): (r: string)
    ensures ValidId(id) && |value| <= 99 ==> r == Field(id, value)
    ensures |value| > 99 ==> |r| >= |id| + 3 + |value|
    ensures |r| >= |id| + 2 + |value| && EndsWith(r, value)
  {
    var r := id + LengthPrefix(|value|) + value;
    assert r[|r| - |value|..] == value;
    r
  }

  /** `s` ends with `t`. */
  predicate EndsWith(s: string, t: string) {
    |t| <= |s| && s[|s| - |t|..] == t
  }

  /** The additional data template as the builder spells it. */
  function AdditionalDataAsWritten(reference: Option<string>): (r: string)
    ensures |r| == 13 + |ReferenceLabel(reference)|
    ensures r[..2] == "05" && r[4..4 + |ReferenceLabel(reference)|] == ReferenceLabel(reference)
    ensures r[2..4] == LengthPrefix(|ReferenceLabel(reference)|)
    ensures r[|r| - 9..] == "070503***"
  {
    if HasReference(reference) then
      var referencia := Truncate(reference.value, ReferenceLength);
      var r := "05" + LengthPrefix(|referencia|) + referencia + "070503***";
      ReferencePlaced(LengthPrefix(|referencia|), referencia, r);
      r
    else
      DefaultPlaced("0508IPVA2026070503***");
      "0508IPVA2026070503***"
  }

  /** Where the reference and the terminal label sit in the template. */
  lemma ReferencePlaced(len: string, referencia: string, r: string)
    requires |len| == 2 && r == "05" + len + referencia + "070503***"
    ensures |r| == 13 + |referencia| && r[..2] == "05" && r[4..4 + |referencia|] == referencia
    ensures r[2..4] == len
    ensures r[|r| - 9..] == "070503***"
  {
  }

  lemma DefaultPlaced(r: string)
    requires r == "0508IPVA2026070503***"
    ensures |r| == 13 + |DefaultReference| && r[..2] == "05" && r[4..12] == DefaultReference
    ensures r[2..4] == LengthPrefix(|DefaultReference|)
    ensures r[|r| - 9..] == "070503***"
  {
    EightSpelled();
  }

  lemma EightSpelled()
    ensures LengthPrefix(|DefaultReference|) == "08"
  {
    TwoDigitsValue("08");
    DigitsOfTwo(LengthPrefix(8), "08");
  }

  /** The merchant account template as the builder spells it. */
  function MerchantAccountAsWritten(key: string): (r: string)
    ensures |r| >= 22 + |key|
    ensures |key| <= 99 ==> |r| == 22 + |key|
    ensures r[..18] == "0014" + PixGui
    ensures EndsWith(r, key)
  {
    var field := FieldAsWritten("01", key);
    var r := "0014BR.GOV.BCB.PIX" + field;
    GuiSpelled();
    AccountShape("0014BR.GOV.BCB.PIX", field, key, r);
    r
  }

  lemma GuiSpelled()
    ensures "0014BR.GOV.BCB.PIX" == "0014" + PixGui
  {
  }

  /** A key at the end of its field stays at the end of the template. */
  lemma AccountShape(head: string, field: string, key: string, r: string)
    requires |head| == 18 && |field| >= 4 + |key| && EndsWith(field, key) && r == head + field
    ensures |r| >= 22 + |key| && r[..18] == head && EndsWith(r, key)
  {
    assert r[18..] == field;
  }

  /** Everything the builder writes before the CRC digits. */
  function BodyAsWritten(amount: string, key: string, reference: Option<string>, name: string, city: string): (r: string)
    ensures |r| >= 4 + |AdditionalDataAsWritten(reference)|
    ensures r[|r| - 4..] == CrcHeader
    ensures EndsWith(r, AdditionalDataAsWritten(reference) + CrcHeader)
    ensures StartsWith(r, "000201" + FieldAsWritten("26", MerchantAccountAsWritten(key)))
  {
    var head := "000201" + FieldAsWritten("26", MerchantAccountAsWritten(key));
    var amountField, nameField, cityField := FieldAsWritten("54", amount), FieldAsWritten("59", name), FieldAsWritten("60", city);
    var front := head + "52040000" + "5303986" + amountField + "5802BR" + nameField + cityField;
    var last := FieldAsWritten("62", AdditionalDataAsWritten(reference));
    var r := front + last + CrcHeader;
    EndKept(front, last, AdditionalDataAsWritten(reference), r);
    HeadKept(head, amountField, nameField, cityField, last, r);
    r
  }

  /** The first field stays first whatever follows it. */
  lemma HeadKept(head: string, amountField: string, nameField: string, cityField: string, last: string, r: string)
    requires r == head + "52040000" + "5303986" + amountField + "5802BR" + nameField + cityField + last + CrcHeader
    ensures StartsWith(r, head)
  {
    var n := |head|;
    var s1 := head + "52040000";
    PrefixKept(head, "52040000", n);
    var s2 := s1 + "5303986";
    PrefixKept(s1, "5303986", n);
    var s3 := s2 + amountField;
    PrefixKept(s2, amountField, n);
    var s4 := s3 + "5802BR";
    PrefixKept(s3, "5802BR", n);
    var s5 := s4 + nameField;
    PrefixKept(s4, nameField, n);
    var s6 := s5 + cityField;
    PrefixKept(s5, cityField, n);
    var s7 := s6 + last;
    PrefixKept(s6, last, n);
    PrefixKept(s7, CrcHeader, n);
    assert head[..n] == head;
  }

  /** The last field's value sits just before the CRC header. */
  lemma EndKept(front: string, last: string, value: string, r: string)
    requires EndsWith(last, value)
    requires r == front + last + CrcHeader
    ensures |r| >= 4 + |value| && r[|r| - 4..] == CrcHeader && EndsWith(r, value + CrcHeader)
  {
    assert r[|front|..|r| - 4] == last;
    assert r[|r| - 4 - |value|..] == value + CrcHeader;
  }

  /** The builder as written: the amount check (before rounding), the key
      check, then the text, with no check that a length fits two digits. */
  function PayloadAsWritten(valor: string, key: Option<string>, reference: Option<string>, name: string, city: string)
    : (r: Result<string, PixError>)
    ensures r.Err? ==> r.error != FieldTooLong
    ensures r == Err(InvalidAmount) <==> AmountTextAsWritten(valor).None?
    ensures r == Err(InvalidKey) <==> AmountTextAsWritten(valor).Some? && !KeyAccepted(key)
    ensures r.Ok? <==> AmountTextAsWritten(valor).Some? && KeyAccepted(key)
    ensures r.Ok? ==> CrcValid(r.value)
    ensures r.Ok? ==>
      r.value[..|r.value| - 4] == BodyAsWritten(AmountTextAsWritten(valor).value, key.value, reference, name, city)
  {
    match AmountTextAsWritten(valor)
    case None => Err(InvalidAmount)
    case Some(amount) =>
      if !KeyAccepted(key) then Err(InvalidKey)
      else Ok(Close(BodyAsWritten(amount, key.value, reference, name, city)))
  }

  lemma MerchantAccountSpelled(key: string)
    requires |key| <= 99
    ensures MerchantAccount(key) == MerchantAccountAsWritten(key)
  {
    Arrangement();
  }

  lemma AdditionalDataSpelled(reference: Option<string>)
    ensures AdditionalData(ReferenceLabel(reference)) == AdditionalDataAsWritten(reference)
  {
    if HasReference(reference) {
      Terminal();
    } else {
      DefaultAdditionalData();
    }
  }

  /** A prefix of data objects grows by one field at a time. */
  lemma SerializeSnoc(objs: seq<DataObject>, k: nat)
    requires AllEncodable(objs) && k < |objs|
    ensures AllEncodable(objs[..k]) && AllEncodable(objs[..k + 1])
    ensures Serialize(objs[..k + 1]) == Serialize(objs[..k]) + Field(objs[k].id, objs[k].value)
  {
    var o := objs[k];
    assert objs[..k + 1] == objs[..k] + [o];
    assert AllEncodable(objs[..k]) by {
      forall i | 0 <= i < k
        ensures Encodable(objs[..k][i])
      {
        assert objs[..k][i] == objs[i];
      }
    }
    assert Serialize([o]) == Field(o.id, o.value) by {
      SerializeFrom([o], 0);
      assert [o][1..] == [];
    }
    SerializeAppend(objs[..k], [o]);
  }

  /** Nine data objects written one after another, as the builder appends
      them. */
  lemma SerializeNine(objs: seq<DataObject>, f0: string, f1: string, f2: string, f3: string, f4: string,
                      f5: string, f6: string, f7: string, f8: string)
    requires AllEncodable(objs) && |objs| == 9
    requires Field(objs[0].id, objs[0].value) == f0 && Field(objs[1].id, objs[1].value) == f1
    requires Field(objs[2].id, objs[2].value) == f2 && Field(objs[3].id, objs[3].value) == f3
    requires Field(objs[4].id, objs[4].value) == f4 && Field(objs[5].id, objs[5].value) == f5
    requires Field(objs[6].id, objs[6].value) == f6 && Field(objs[7].id, objs[7].value) == f7
    requires Field(objs[8].id, objs[8].value) == f8
    ensures Serialize(objs) == f0 + f1 + f2 + f3 + f4 + f5 + f6 + f7 + f8
  {
    SerializeFive(objs, f0, f1, f2, f3, f4);
    SnocStep(objs, 5, f0 + f1 + f2 + f3 + f4, f5);
    SnocStep(objs, 6, f0 + f1 + f2 + f3 + f4 + f5, f6);
    SnocStep(objs, 7, f0 + f1 + f2 + f3 + f4 + f5 + f6, f7);
    SnocStep(objs, 8, f0 + f1 + f2 + f3 + f4 + f5 + f6 + f7, f8);
    assert objs[..9] == objs;
  }

  /** The first five of the payload's data objects. */
  lemma SerializeFive(objs: seq<DataObject>, f0: string, f1: string, f2: string, f3: string, f4: string)
    requires AllEncodable(objs) && |objs| >= 5
    requires Field(objs[0].id, objs[0].value) == f0 && Field(objs[1].id, objs[1].value) == f1
    requires Field(objs[2].id, objs[2].value) == f2 && Field(objs[3].id, objs[3].value) == f3
    requires Field(objs[4].id, objs[4].value) == f4
    ensures AllEncodable(objs[..5]) && Serialize(objs[..5]) == f0 + f1 + f2 + f3 + f4
  {
    assert objs[..0] == [];
    SerializeSnoc(objs, 0);
    SnocStep(objs, 1, f0, f1);
    SnocStep(objs, 2, f0 + f1, f2);
    SnocStep(objs, 3, f0 + f1 + f2, f3);
    SnocStep(objs, 4, f0 + f1 + f2 + f3, f4);
  }

  /** One more data object appended to the text of those before it. */
  lemma SnocStep(objs: seq<DataObject>, k: nat, prev: string, piece: string)
    requires AllEncodable(objs) && 0 < k < |objs|
    requires AllEncodable(objs[..k]) && Serialize(objs[..k]) == prev
    requires Field(objs[k].id, objs[k].value) == piece
    ensures AllEncodable(objs[..k + 1]) && Serialize(objs[..k + 1]) == prev + piece
  {
    SerializeSnoc(objs, k);
  }

  /** When every length fits, the builder's text is the serialization of
      the payload's data objects followed by the CRC header. */
  lemma BodyAgrees(amount: string, key: string, reference: Option<string>, name: string, city: string)
    requires Fits(amount, key, name, city)
    ensures BodyAsWritten(amount, key, reference, name, city)
      == Serialize(PayloadObjects(amount, key, ReferenceLabel(reference), name, city)) + CrcHeader
  {
    var objs := PayloadObjects(amount, key, ReferenceLabel(reference), name, city);
    LeadingFields(amount, key, reference, name, city);
    TrailingFields(amount, key, reference, name, city);
    SerializeNine(objs, "000201", FieldAsWritten("26", MerchantAccountAsWritten(key)), "52040000", "5303986",
      FieldAsWritten("54", amount), "5802BR", FieldAsWritten("59", name), FieldAsWritten("60", city),
      FieldAsWritten("62", AdditionalDataAsWritten(reference)));
  }

  /** The first four data objects of the payload as the builder spells them. */
  lemma LeadingFields(amount: string, key: string, reference: Option<string>, name: string, city: string)
    requires Fits(amount, key, name, city)
    ensures var objs := PayloadObjects(amount, key, ReferenceLabel(reference), name, city);
      && Field(objs[0].id, objs[0].value) == "000201"
      && Field(objs[1].id, objs[1].value) == FieldAsWritten("26", MerchantAccountAsWritten(key))
      && Field(objs[2].id, objs[2].value) == "52040000"
      && Field(objs[3].id, objs[3].value) == "5303986"
  {
    IndicatorAndAccount(amount, key, reference, name, city);
    CategoryAndCurrency(amount, key, reference, name, city);
  }

  lemma IndicatorAndAccount(amount: string, key: string, reference: Option<string>, name: string, city: string)
    requires Fits(amount, key, name, city)
    ensures var objs := PayloadObjects(amount, key, ReferenceLabel(reference), name, city);
      && Field(objs[0].id, objs[0].value) == "000201"
      && Field(objs[1].id, objs[1].value) == FieldAsWritten("26", MerchantAccountAsWritten(key))
  {
    FormatIndicator();
    MerchantAccountSpelled(key);
  }

  lemma CategoryAndCurrency(amount: string, key: string, reference: Option<string>, name: string, city: string)
    requires Fits(amount, key, name, city)
    ensures var objs := PayloadObjects(amount, key, ReferenceLabel(reference), name, city);
      && Field(objs[2].id, objs[2].value) == "52040000"
      && Field(objs[3].id, objs[3].value) == "5303986"
  {
    CategoryCode();
    Currency();
  }

  /** The last five data objects of the payload as the builder spells them. */
  lemma TrailingFields(amount: string, key: string, reference: Option<string>, name: string, city: string)
    requires Fits(amount, key, name, city)
    ensures var objs := PayloadObjects(amount, key, ReferenceLabel(reference), name, city);
      && Field(objs[4].id, objs[4].value) == FieldAsWritten("54", amount)
      && Field(objs[5].id, objs[5].value) == "5802BR"
      && Field(objs[6].id, objs[6].value) == FieldAsWritten("59", name)
      && Field(objs[7].id, objs[7].value) == FieldAsWritten("60", city)
      && Field(objs[8].id, objs[8].value) == FieldAsWritten("62", AdditionalDataAsWritten(reference))
  {
    Country();
    AdditionalDataSpelled(reference);
  }

  /** Wherever the builder succeeds, the builder as written produces the
      same payload. */
  lemma AsWrittenAgrees(valor: string, key: Option<string>, reference: Option<string>, name: string, city: string)
    requires GeneratePix(valor, key, reference, name, city).Ok?
    ensures PayloadAsWritten(valor, key, reference, name, city) == GeneratePix(valor, key, reference, name, city)
  {
    NormalizeAsWritten(valor);
    BuildAgrees(NormalizeAmount(valor).value, key.value, reference, name, city);
  }

  lemma BuildAgrees(cents: nat, key: string, reference: Option<string>, name: string, city: string)
    requires Fits(FormatCents(cents), key, name, city)
    ensures Close(BodyAsWritten(FormatCents(cents), key, reference, name, city))
      == Build(cents, key, ReferenceLabel(reference), name, city)
  {
    BodyAgrees(FormatCents(cents), key, reference, name, city);
  }

  /** A key longer than 77 characters makes the merchant account template
      100 characters or more. The builder as written still writes it: the
      payload opens with `00020126` and a length text of three digits or
      more, and no reading of the payload has the template as a data
      object. */
  lemma LongKeyCorrupts(valor: string, key: Option<string>, reference: Option<string>, name: string, city: string, p: string)
    requires PayloadAsWritten(valor, key, reference, name, city) == Ok(p)
    requires |key.value| > MaxKeyLength
    ensures var mai := MerchantAccountAsWritten(key.value);
      && |mai| > 99 && |LengthPrefix(|mai|)| >= 3
      && StartsWith(p, "000201" + "26" + LengthPrefix(|mai|))
      && (Parse(p).Some? ==> DataObject("26", mai) !in Parse(p).value)
  {
    var body := BodyAsWritten(AmountTextAsWritten(valor).value, key.value, reference, name, city);
    LongKeyTemplate(key.value);
    LongTemplateWritten(p, body, MerchantAccountAsWritten(key.value));
  }

  /** A payload whose body opens with a merchant account template of
      more than 99 characters carries a length text of three digits or
      more, and no reading of it has that template as a data object. */
  lemma LongTemplateWritten(p: string, body: string, mai: string)
    requires |mai| > 99
    requires |p| >= 4 && p[..|p| - 4] == body
    requires StartsWith(body, "000201" + FieldAsWritten("26", mai))
    ensures StartsWith(p, "000201" + "26" + LengthPrefix(|mai|))
    ensures Parse(p).Some? ==> DataObject("26", mai) !in Parse(p).value
  {
    var head := "000201" + FieldAsWritten("26", mai);
    HeadSpelled(LengthPrefix(|mai|), mai, head);
    OpeningKept(p, body, head, "000201" + "26" + LengthPrefix(|mai|));
    if Parse(p).Some? {
      ParsedValuesShort(p);
    }
  }

  /** `s` starts with `t`. */
  predicate StartsWith(s: string, t: string) {
    |t| <= |s| && s[..|t|] == t
  }

  /** Appending keeps the first `n` characters. */
  lemma PrefixKept(a: string, b: string, n: nat)
    requires n <= |a|
    ensures (a + b)[..n] == a[..n]
  {
  }

  /** The merchant account field starts with its ID and its length text. */
  lemma HeadSpelled(len: string, mai: string, head: string)
    requires head == "000201" + ("26" + len + mai)
    ensures StartsWith(head, "000201" + "26" + len)
  {
    assert head == ("000201" + "26" + len) + mai;
  }

  /** What the body starts with, the payload starts with. */
  lemma OpeningKept(p: string, body: string, head: string, t: string)
    requires |p| >= 4 && p[..|p| - 4] == body
    requires StartsWith(body, head) && StartsWith(head, t)
    ensures StartsWith(p, t)
  {
    forall i | 0 <= i < |t|
      ensures p[i] == t[i]
    {
      assert p[i] == p[..|p| - 4][i];
      assert body[i] == body[..|head|][i];
      assert head[i] == head[..|t|][i];
    }
  }

  /** The merchant account template of a key longer than 77 characters
      needs a length of three digits. */
  lemma LongKeyTemplate(key: string)
    requires |key| > MaxKeyLength
    ensures var mai := MerchantAccountAsWritten(key);
      |mai| > 99 && |LengthPrefix(|mai|)| >= 3
  {
    assert ValidId("01");
    assert |FieldAsWritten("01", key)| >= 4 + |key|;
  }

  /** Every data object read from a text has a value of at most 99
      characters. */
  lemma ParsedValuesShort(s: string)
    requires Parse(s).Some?
    ensures forall o :: o in Parse(s).value ==> |o.value| <= 99
  {
    SerializeParse(s);
  }

  /** The builder rejects the key that the builder as written lets
      through. */
  lemma LongKeyRejected(valor: string, key: Option<string>, reference: Option<string>, name: string, city: string)
    requires NormalizeAmount(valor).Some? && KeyAccepted(key) && |key.value| > MaxKeyLength
    ensures GeneratePix(valor, key, reference, name, city) == Err(FieldTooLong)
  {
  }

  /** A positive amount under half a centavo, such as "0,004": the builder
      as written puts "0.00" in the payload, the builder rejects the amount. */
  lemma ZeroAmountPayload(valor: string, v: nat, n: nat, key: Option<string>, reference: Option<string>, name: string, city: string)
    requires ParseFloat(CleanAmount(valor)) == Some(Decimal(false, v, n, 0))
    requires n >= 3 && 0 < v && 2 * v < Pow10(n - 2)
    requires KeyAccepted(key)
    ensures var r := PayloadAsWritten(valor, key, reference, name, city);
      r.Ok? && r.value[..|r.value| - 4] == BodyAsWritten("0.00", key.value, reference, name, city)
    ensures GeneratePix(valor, key, reference, name, city) == Err(InvalidAmount)
  {
    SubCentAmount(valor, v, n);
  }

  /** With the payee the builder always writes, a length only fails to fit
      because of the key or an amount of a hundred digits. */
  lemma BuilderPayeeFits(amount: string, key: string)
    ensures Fits(amount, key, MerchantName, MerchantCity) <==> |amount| <= 99 && |key| <= MaxKeyLength
  {
    assert |MerchantName| == 13 && |MerchantCity| == 8;
  }
}

=== FILE: strings.dfy ===
/** The JavaScript string and number built-ins the payload builder relies on:
    digit strings, `Number.prototype.toString` in bases 10 and 16,
    `String.prototype.padStart`, `indexOf`-based `replace`, `trim` and
    `toUpperCase` on hexadecimal digits.

    A JavaScript string is a sequence of UTF-16 code units; here it is a
    `string` (`seq<char>`) and one `char` stands for one code unit. */
module Strings {
  import opened Outcomes

  // ---------------------------------------------------------------------
  // Decimal digits
  // ---------------------------------------------------------------------

  predicate IsDigit(c: char) {
    '0' <= c <= '9'
  }

  predicate AllDigits(s: string) {
    forall i :: 0 <= i < |s| ==> IsDigit(s[i])
  }

  function DigitValue(c: char): (d: nat)
    requires IsDigit(c)
    ensures d < 10
  {
    (c as int) - ('0' as int)
  }

  function DigitChar(d: nat): (c: char)
    requires d < 10
    ensures IsDigit(c) && DigitValue(c) == d
  {
    ('0' as int + d) as char
  }

  function Pow10(n: nat): (p: nat)
    ensures p >= 1
  {
    if n == 0 then 1 else 10 * Pow10(n - 1)
  }

  /** The number a string of decimal digits denotes, most significant first;
      the empty string denotes 0. */
  function DigitsValue(s: string): nat
    requires AllDigits(s)
  {
    if |s| == 0 then 0 else DigitsValue(s[..|s| - 1]) * 10 + DigitValue(s[|s| - 1])
  }

  lemma {:induction false} DigitsValueBound(s: string)
    requires AllDigits(s)
    ensures DigitsValue(s) < Pow10(|s|)
    decreases |s|
  {
    if |s| > 0 {
      DigitsValueBound(s[..|s| - 1]);
    }
  }

  lemma ShiftLeftDigit(x: nat, p: nat, y: nat, d: nat)
    ensures (x * p + y) * 10 + d == x * (10 * p) + (y * 10 + d)
  {
  }

  /** Reading `a + b` as one number shifts `a` left by the digits of `b`. */
  lemma {:induction false} DigitsValueAppend(a: string, b: string)
    requires AllDigits(a) && AllDigits(b)
    ensures AllDigits(a + b)
    ensures DigitsValue(a + b) == DigitsValue(a) * Pow10(|b|) + DigitsValue(b)
    decreases |b|
  {
    var ab := a + b;
    assert AllDigits(ab);
    if |b| == 0 {
      assert ab == a;
    } else {
      var b' := b[..|b| - 1];
      var d := DigitValue(b[|b| - 1]);
      assert ab[..|ab| - 1] == a + b';
      assert ab[|ab| - 1] == b[|b| - 1];
      assert b[..|b| - 1] == b';
      DigitsValueAppend(a, b');
      ShiftLeftDigit(DigitsValue(a), Pow10(|b'|), DigitsValue(b'), d);
    }
  }

  lemma TwoDigitsValue(s: string)
    requires |s| == 2 && AllDigits(s)
    ensures DigitsValue(s) == DigitValue(s[0]) * 10 + DigitValue(s[1])
  {
    var first := s[..1];
    assert first[..0] == [] && first[0] == s[0];
    assert DigitsValue(first) == DigitValue(s[0]);
    assert s[..|s| - 1] == first;
  }

  /** `Number.prototype.toString()` on a non-negative integer: its decimal
      digits, with no leading zero. */
  function DecimalString(n: nat): (r: string)
    ensures AllDigits(r) && DigitsValue(r) == n
    ensures 1 <= |r| && (|r| > 1 ==> r[0] != '0')
    ensures n < 10 <==> |r| == 1
    ensures n < 100 <==> |r| <= 2
  {
    if n < 10 then
      [DigitChar(n)]
    else
      var r := DecimalString(n / 10) + [DigitChar(n % 10)];
      assert r[..|r| - 1] == DecimalString(n / 10);
      r
  }

  /** `String.prototype.padStart(width, fill)` with a one-character filler:
      shorter strings are filled on the left, longer ones are never cut. */
  function PadStart(s: string, width: nat, fill: char): (r: string)
    ensures |r| == if |s| >= width then |s| else width
    ensures r[|r| - |s|..] == s
    ensures forall i :: 0 <= i < |r| - |s| ==> r[i] == fill
    decreases width - |s|
  {
    if |s| >= width then s
    else
      var r := PadStart([fill] + s, width, fill);
      PadStep(s, fill, r);
      r
  }

  /** A text padded after one fill character is the text padded. */
  lemma PadStep(s: string, fill: char, r: string)
    requires |r| > |s| && r[|r| - |s| - 1..] == [fill] + s
    requires forall i :: 0 <= i < |r| - |s| - 1 ==> r[i] == fill
    ensures r[|r| - |s|..] == s
    ensures forall i :: 0 <= i < |r| - |s| ==> r[i] == fill
  {
    var n := |r| - |s| - 1;
    assert r[n] == ([fill] + s)[0];
    assert r[|r| - |s|..] == r[n..][1..];
  }

  /** A zero prepended to a digit string does not change its value. */
  lemma {:induction false} LeadingZero(s: string)
    requires AllDigits(s)
    ensures AllDigits("0" + s) && DigitsValue("0" + s) == DigitsValue(s)
    decreases |s|
  {
    var p := "0" + s;
    assert AllDigits(p);
    if |s| > 0 {
      LeadingZero(s[..|s| - 1]);
      assert p[..|p| - 1] == "0" + s[..|s| - 1];
    }
  }

  /** Exactly two digits for a number below 100. */
  function TwoDigits(n: nat): (r: string)
    requires n < 100
    ensures |r| == 2 && AllDigits(r) && DigitsValue(r) == n
  {
    var r := [DigitChar(n / 10), DigitChar(n % 10)];
    TwoDigitsValue(r);
    r
  }

  /** `n.toString().padStart(2, '0')`, the two-digit length of a data
      object. Up to 99 it is exactly two digits denoting `n`; from 100 on
      `padStart` leaves all of the (three or more) digits in place. */
  function LengthPrefix(n: nat): (r: string)
    ensures AllDigits(r) && DigitsValue(r) == n
    ensures n <= 99 <==> |r| == 2
    ensures n > 99 ==> |r| >= 3
  {
    if n <= 99 then TwoDigits(n) else DecimalString(n)
  }

  /** The two cases of `LengthPrefix` are what `padStart` makes of the
      decimal digits. */
  lemma LengthPrefixPadded(n: nat)
    ensures LengthPrefix(n) == PadStart(DecimalString(n), 2, '0')
  {
    var d := DecimalString(n);
    if n < 10 {
      assert PadStart(d, 2, '0') == "0" + d;
      LeadingZero(d);
      DigitsOfTwo(TwoDigits(n), "0" + d);
    } else if n <= 99 {
      DigitsOfTwo(TwoDigits(n), d);
    }
  }

  /** Two two-digit strings with the same value are the same string. */
  lemma DigitsOfTwo(a: string, b: string)
    requires |a| == 2 && |b| == 2 && AllDigits(a) && AllDigits(b)
    requires DigitsValue(a) == DigitsValue(b)
    ensures a == b
  {
    TwoDigitsValue(a);
    TwoDigitsValue(b);
    assert DigitValue(a[0]) == DigitValue(b[0]);
    assert a[0] == b[0] && a[1] == b[1];
  }

  // ---------------------------------------------------------------------
  // Search and replace
  // ---------------------------------------------------------------------

  predicate OccursAt(s: string, pat: string, i: nat) {
    i + |pat| <= |s| && s[i..i + |pat|] == pat
  }

  /** The first position at or after `k` where `pat` occurs, if any. */
  function IndexFrom(s: string, pat: string, k: nat): (r: Option<nat>)
    ensures r.Some? ==> k <= r.value && OccursAt(s, pat, r.value)
    ensures r.Some? ==> forall j :: k <= j < r.value ==> !OccursAt(s, pat, j)
    ensures r.None? ==> forall j :: k <= j <= |s| ==> !OccursAt(s, pat, j)
    decreases |s| + 1 - k
  {
    if k > |s| then None
    else if OccursAt(s, pat, k) then Some(k)
    else IndexFrom(s, pat, k + 1)
  }

  /** `s.indexOf(pat)`: the first position where `pat` occurs, if any. */
  function IndexOf(s: string, pat: string): (r: Option<nat>)
    ensures r.Some? ==> OccursAt(s, pat, r.value)
    ensures r.Some? ==> forall j :: 0 <= j < r.value ==> !OccursAt(s, pat, j)
    ensures r.None? ==> forall j :: 0 <= j <= |s| ==> !OccursAt(s, pat, j)
  {
    IndexFrom(s, pat, 0)
  }

  /** A pattern whose first character does not occur in `s` is not found. */
  lemma IndexOfAbsent(s: string, pat: string)
    requires |pat| > 0 && pat[0] !in s
    ensures IndexOf(s, pat).None?
  {
  }

  /** A string that starts with the pattern finds it at position 0. */
  lemma IndexOfPrefix(pat: string, rest: string)
    ensures IndexOf(pat + rest, pat) == Some(0)
  {
    assert OccursAt(pat + rest, pat, 0);
  }

  /** A one-character pattern is found where it first occurs. */
  lemma IndexOfChar(a: string, c: char, b: string)
    requires c !in a
    ensures IndexOf(a + [c] + b, [c]) == Some(|a|)
  {
    var s := a + [c] + b;
    assert OccursAt(s, [c], |a|);
    forall j | 0 <= j < |a|
      ensures !OccursAt(s, [c], j)
    {
      assert s[j] == a[j];
    }
  }

  /** `s.replace(pat, rep)` with a string pattern: only the first occurrence
      is replaced. */
  function ReplaceFirst(s: string, pat: string, rep: string): (r: string)
    ensures forall x :: x in r ==> x in s || x in rep
    ensures IndexOf(s, pat).None? ==> r == s
  {
    match IndexOf(s, pat)
    case None => s
    case Some(i) => s[..i] + rep + s[i + |pat|..]
  }

  /** The first occurrence of the pattern, wherever it is, is the one
      replaced, and the text around it is kept. */
  lemma ReplaceFirstAt(a: string, pat: string, b: string, rep: string)
    requires forall j :: 0 <= j < |a| ==> !OccursAt(a + pat + b, pat, j)
    ensures ReplaceFirst(a + pat + b, pat, rep) == a + rep + b
  {
    var s := a + pat + b;
    assert s[|a|..|a| + |pat|] == pat;
    assert OccursAt(s, pat, |a|);
    assert s[..|a|] == a && s[|a| + |pat|..] == b;
  }

  /** `s.replace(/c/g, '')`: every occurrence of `c` deleted, the rest kept
      in order. */
  function RemoveAll(s: string, c: char): (r: string)
    ensures c !in r
    ensures forall x :: x != c ==> (x in r <==> x in s)
    ensures c !in s ==> r == s
  {
    if |s| == 0 then []
    else
      assert s == [s[0]] + s[1..];
      (if s[0] == c then [] else [s[0]]) + RemoveAll(s[1..], c)
  }

  /** Concatenation regrouped. */
  lemma Regroup(a: string, b: string, c: string)
    ensures a + b + c == a + (b + c)
  {
  }

  lemma {:induction false} RemoveAllAppend(a: string, b: string, c: char)
    ensures RemoveAll(a + b, c) == RemoveAll(a, c) + RemoveAll(b, c)
    decreases |a|
  {
    if |a| > 0 {
      var ab := a + b;
      assert ab[0] == a[0] && ab[1..] == a[1..] + b;
      RemoveAllAppend(a[1..], b, c);
      var head := if a[0] == c then [] else [a[0]];
      assert RemoveAll(ab, c) == head + RemoveAll(a[1..] + b, c);
      assert RemoveAll(a, c) == head + RemoveAll(a[1..], c);
      Regroup(head, RemoveAll(a[1..], c), RemoveAll(b, c));
    } else {
      assert a + b == b;
    }
  }

  // ---------------------------------------------------------------------
  // Trimming
  // ---------------------------------------------------------------------

  /** ECMAScript's WhiteSpace and LineTerminator characters, the ones
      `String.prototype.trim` removes. */
  predicate IsJsSpace(c: char) {
    || c == '\t' || c == '\n' || c == '\U{000B}' || c == '\U{000C}' || c == '\r'
    || c == ' ' || c == '\U{00A0}' || c == '\U{1680}'
    || ('\U{2000}' <= c <= '\U{200A}')
    || c == '\U{2028}' || c == '\U{2029}' || c == '\U{202F}' || c == '\U{205F}'
    || c == '\U{3000}' || c == '\U{FEFF}'
  }

  function TrimStart(s: string): (r: string)
    ensures |r| <= |s| && r == s[|s| - |r|..]
    ensures forall i :: 0 <= i < |s| - |r| ==> IsJsSpace(s[i])
    ensures |r| > 0 ==> !IsJsSpace(r[0])
  {
    if |s| > 0 && IsJsSpace(s[0]) then
      var r := TrimStart(s[1..]);
      TrimStartStep(s, r);
      r
    else s
  }

  /** Dropping one leading white space character before trimming. */
  lemma TrimStartStep(s: string, r: string)
    requires |s| > 0 && IsJsSpace(s[0])
    requires |r| <= |s| - 1 && r == s[1..][|s| - 1 - |r|..]
    requires forall i :: 0 <= i < |s| - 1 - |r| ==> IsJsSpace(s[1..][i])
    ensures r == s[|s| - |r|..]
    ensures forall i :: 0 <= i < |s| - |r| ==> IsJsSpace(s[i])
  {
    assert s[1..][|s| - 1 - |r|..] == s[|s| - |r|..];
    forall i | 0 < i < |s| - |r|
      ensures IsJsSpace(s[i])
    {
      assert s[i] == s[1..][i - 1];
    }
  }

  function TrimEnd(s: string): (r: string)
    ensures |r| <= |s| && r == s[..|r|]
    ensures forall i :: |r| <= i < |s| ==> IsJsSpace(s[i])
    ensures |r| > 0 ==> !IsJsSpace(r[|r| - 1])
  {
    if |s| > 0 && IsJsSpace(s[|s| - 1]) then
      var r := TrimEnd(s[..|s| - 1]);
      TrimEndStep(s, s[..|s| - 1], r);
      r
    else s
  }

  /** Dropping one trailing white space character before trimming. */
  lemma TrimEndStep(s: string, t: string, r: string)
    requires |s| > 0 && IsJsSpace(s[|s| - 1]) && t == s[..|s| - 1]
    requires |r| <= |t| && r == t[..|r|]
    requires forall i :: |r| <= i < |t| ==> IsJsSpace(t[i])
    ensures r == s[..|r|]
    ensures forall i :: |r| <= i < |s| ==> IsJsSpace(s[i])
  {
    assert t[..|r|] == s[..|r|];
    forall i | |r| <= i < |t|
      ensures IsJsSpace(s[i])
    {
      assert s[i] == t[i];
    }
  }

  predicate NoJsSpace(s: string) {
    forall i :: 0 <= i < |s| ==> !IsJsSpace(s[i])
  }

  /** `s.trim()`: leading and trailing white space removed. */
  function Trim(s: string): (r: string)
    ensures |r| <= |s|
    ensures |r| > 0 ==> !IsJsSpace(r[0]) && !IsJsSpace(r[|r| - 1])
    ensures forall x :: x in r ==> x in s
    ensures NoJsSpace(s) ==> r == s
    ensures exists i :: Window(s, r, i)
  {
    var t := TrimStart(s);
    var r := TrimEnd(t);
    SliceChars(s, |s| - |t|, |s|);
    SliceChars(t, 0, |r|);
    TrimWindow(s, t, r);
    r
  }

  /** `r` sits at position `i` of `s` with only white space before and
      after it. */
  predicate Window(s: string, r: string, i: nat) {
    && i + |r| <= |s| && r == s[i..i + |r|]
    && (forall k :: 0 <= k < i ==> IsJsSpace(s[k]))
    && (forall k :: i + |r| <= k < |s| ==> IsJsSpace(s[k]))
  }

  /** What trimming keeps is one window of the text with only white space
      on either side of it: a suffix after leading white space, cut
      before trailing white space. */
  lemma TrimWindow(s: string, t: string, r: string)
    requires |t| <= |s| && t == s[|s| - |t|..]
    requires forall k :: 0 <= k < |s| - |t| ==> IsJsSpace(s[k])
    requires |r| <= |t| && r == t[..|r|]
    requires forall k :: |r| <= k < |t| ==> IsJsSpace(t[k])
    ensures Window(s, r, |s| - |t|)
  {
    var i := |s| - |t|;
    forall j | 0 <= j < |r|
      ensures r[j] == s[i + j]
    {
      assert r[j] == t[j];
    }
    assert r == s[i..i + |r|];
    forall k | i + |r| <= k < |s|
      ensures IsJsSpace(s[k])
    {
      assert s[k] == t[k - i];
    }
  }

  /** A slice holds only characters of the whole. */
  lemma SliceChars(s: string, lo: nat, hi: nat)
    requires lo <= hi <= |s|
    ensures forall x :: x in s[lo..hi] ==> x in s
  {
    forall x | x in s[lo..hi] ensures x in s {
      var i :| 0 <= i < hi - lo && s[lo..hi][i] == x;
      assert s[lo + i] == x;
    }
  }

  // ---------------------------------------------------------------------
  // Hexadecimal
  // ---------------------------------------------------------------------

  const LowerHexDigits: string := "0123456789abcdef"
  const UpperHexDigits: string := "0123456789ABCDEF"

  predicate IsUpperHex(c: char) {
    c in UpperHexDigits
  }

  function UpperHexValue(c: char): (d: nat)
    requires IsUpperHex(c)
    ensures d < 16 && UpperHexDigits[d] == c
  {
    if '0' <= c <= '9' then (c as int) - ('0' as int) else (c as int) - ('A' as int) + 10
  }

  /** The number a string of upper-case hexadecimal digits denotes. */
  function HexValue(s: string): nat
    requires forall i :: 0 <= i < |s| ==> IsUpperHex(s[i])
  {
    if |s| == 0 then 0 else HexValue(s[..|s| - 1]) * 16 + UpperHexValue(s[|s| - 1])
  }

  /** `n.toString(16)`: lower-case hexadecimal digits, no leading zero. */
  function HexString(n: nat): (r: string)
    ensures 1 <= |r|
    ensures forall i :: 0 <= i < |r| ==> r[i] in LowerHexDigits
    ensures n < 0x10 ==> |r| == 1
    ensures n < 0x100 ==> |r| <= 2
    ensures n < 0x1000 ==> |r| <= 3
    ensures n < 0x10000 ==> |r| <= 4
    decreases n
  {
    if n < 16 then [LowerHexDigits[n]] else HexString(n / 16) + [LowerHexDigits[n % 16]]
  }

  function UpperChar(c: char): char {
    if 'a' <= c <= 'z' then (c as int - 32) as char else c
  }

  /** Digit `k` upper-cased is upper-case digit `k`, which reads back as `k`. */
  lemma HexDigitCase(k: nat)
    requires k < 16
    ensures UpperChar(LowerHexDigits[k]) == UpperHexDigits[k]
    ensures IsUpperHex(UpperHexDigits[k]) && UpperHexValue(UpperHexDigits[k]) == k
  {
    if k < 10 {
      assert LowerHexDigits[k] == UpperHexDigits[k] == ('0' as int + k) as char;
    } else {
      assert LowerHexDigits[k] == ('a' as int + k - 10) as char;
      assert UpperHexDigits[k] == ('A' as int + k - 10) as char;
    }
  }

  /** `s.toUpperCase()` on ASCII letters; other characters are kept. */
  function ToUpperAscii(s: string): (r: string)
    ensures |r| == |s|
  {
    if |s| == 0 then [] else ToUpperAscii(s[..|s| - 1]) + [UpperChar(s[|s| - 1])]
  }

  /** Upper-casing works character by character, in place. */
  lemma {:induction false} UpperCaseEach(s: string)
    ensures forall i :: 0 <= i < |s| ==> ToUpperAscii(s)[i] == UpperChar(s[i])
  {
    if |s| > 0 {
      var p := s[..|s| - 1];
      UpperCaseEach(p);
      assert forall i :: 0 <= i < |p| ==> s[i] == p[i];
    }
  }

  /** Upper-casing a lower-case hexadecimal numeral gives the upper-case
      numeral of the same number. */
  lemma {:induction false} UpperHexString(n: nat)
    ensures var u := ToUpperAscii(HexString(n));
      && (forall i :: 0 <= i < |u| ==> IsUpperHex(u[i]))
      && HexValue(u) == n
    decreases n
  {
    var h := HexString(n);
    var u := ToUpperAscii(h);
    if n < 16 {
      HexDigitCase(n);
      assert u == [UpperHexDigits[n]];
      assert u[..0] == [];
    } else {
      UpperHexString(n / 16);
      HexDigitCase(n % 16);
      var h' := HexString(n / 16);
      assert h == h' + [LowerHexDigits[n % 16]];
      assert h[..|h| - 1] == h';
      assert u == ToUpperAscii(h') + [UpperHexDigits[n % 16]];
      assert u[..|u| - 1] == ToUpperAscii(h');
    }
  }

  /** A zero prepended to an upper-case hexadecimal numeral does not change
      its value. */
  lemma {:induction false} HexLeadingZero(s: string)
    requires forall i :: 0 <= i < |s| ==> IsUpperHex(s[i])
    ensures var p := "0" + s;
      (forall i :: 0 <= i < |p| ==> IsUpperHex(p[i])) && HexValue(p) == HexValue(s)
    decreases |s|
  {
    var p := "0" + s;
    assert IsUpperHex('0') by { assert UpperHexDigits[0] == '0'; }
    assert forall i :: 0 <= i < |p| ==> IsUpperHex(p[i]);
    if |s| > 0 {
      HexLeadingZero(s[..|s| - 1]);
      assert p[..|p| - 1] == "0" + s[..|s| - 1];
    }
  }

  /** Padding an upper-case hexadecimal numeral with zeros keeps its value. */
  lemma {:induction false} PadHexZeros(u: string)
    requires |u| <= 4
    requires forall i :: 0 <= i < |u| ==> IsUpperHex(u[i])
    ensures var r := PadStart(u, 4, '0');
      (forall i :: 0 <= i < |r| ==> IsUpperHex(r[i])) && HexValue(r) == HexValue(u)
    decreases 4 - |u|
  {
    if |u| < 4 {
      HexLeadingZero(u);
      PadHexZeros("0" + u);
    }
  }

  /** `n.toString(16).toUpperCase().padStart(4, '0')` for a 16-bit value:
      always four upper-case hexadecimal digits denoting `n`. */
  function UpperHex4(n: nat): (r: string)
    requires n < 0x10000
    ensures |r| == 4
    ensures forall i :: 0 <= i < 4 ==> IsUpperHex(r[i])
    ensures HexValue(r) == n
  {
    var u := ToUpperAscii(HexString(n));
    UpperHexString(n);
    PadHexZeros(u);
    PadStart(u, 4, '0')
  }
}

=== FILE: tlv.dfy ===
/** ID–Length–Value data objects, the text format of section 3.1 of the EMV
    QR Code Specification for Payment Systems (merchant-presented mode) that
    the Pix "copy and paste" code follows: a two-digit ID, a two-digit
    length and exactly that many characters of value. A template's value is
    itself a run of data objects. */
module Tlv {
  import opened Outcomes
  import opened Strings

  datatype DataObject = DataObject(id: string, value: string)

  predicate ValidId(id: string) {
    |id| == 2 && AllDigits(id)
  }

  /** A data object the two-digit length can describe. */
  predicate Encodable(o: DataObject) {
    ValidId(o.id) && |o.value| <= 99
  }

  predicate AllEncodable(objs: seq<DataObject>) {
    forall i :: 0 <= i < |objs| ==> Encodable(objs[i])
  }

  /** One data object as the builder writes it:
      `id + value.length.toString().padStart(2, '0') + value`. */
  function Field(id: string, value: string): (r: string)
    requires ValidId(id) && |value| <= 99
    ensures |r| == 4 + |value|
    ensures r[..2] == id && r[4..] == value
    ensures AllDigits(r[2..4]) && DigitsValue(r[2..4]) == |value|
  {
    var len := LengthPrefix(|value|);
    Split3(id, len, value);
    id + len + value
  }

  /** Where the parts of an ID, a length and a value sit in their
      concatenation. */
  lemma Split3(a: string, b: string, c: string)
    requires |a| == 2 && |b| == 2
    ensures |a + b + c| == 4 + |c|
    ensures (a + b + c)[..2] == a && (a + b + c)[2..4] == b && (a + b + c)[4..] == c
  {
  }

  /** Slices of a text that lie inside its first part. */
  lemma AppendSlice(f: string, tail: string, i: nat, j: nat)
    requires i <= j <= |f|
    ensures (f + tail)[i..j] == f[i..j]
  {
  }

  /** Data objects written one after another. */
  function Serialize(objs: seq<DataObject>): string
    requires AllEncodable(objs)
  {
    if |objs| == 0 then "" else Field(objs[0].id, objs[0].value) + Serialize(objs[1..])
  }

  /** Reads a run of data objects, trusting each two-digit length; `None`
      when an ID or a length is not two digits or a value runs past the end. */
  function Parse(s: string): Option<seq<DataObject>>
    decreases |s|
  {
    if |s| == 0 then Some([])
    else if |s| < 4 || !ValidId(s[..2]) || !AllDigits(s[2..4]) then None
    else
      var n := DigitsValue(s[2..4]);
      if |s| < 4 + n then None
      else
        match Parse(s[4 + n..])
        case None => None
        case Some(rest) => Some([DataObject(s[..2], s[4..4 + n])] + rest)
  }

  lemma SerializeAppend(a: seq<DataObject>, b: seq<DataObject>)
    requires AllEncodable(a) && AllEncodable(b)
    ensures AllEncodable(a + b)
    ensures Serialize(a + b) == Serialize(a) + Serialize(b)
    decreases |a|
  {
    assert AllEncodable(a + b) by {
      forall i | 0 <= i < |a + b|
        ensures Encodable((a + b)[i])
      {
        if i < |a| { assert (a + b)[i] == a[i]; } else { assert (a + b)[i] == b[i - |a|]; }
      }
    }
    if |a| > 0 {
      assert (a + b)[1..] == a[1..] + b;
      assert (a + b)[0] == a[0];
      SerializeAppend(a[1..], b);
      assert Serialize(a + b) == Field(a[0].id, a[0].value) + Serialize(a[1..] + b);
    } else {
      assert a + b == b;
    }
  }

  /** A field followed by more text: where its parts sit in the whole. */
  lemma FieldThenTail(id: string, value: string, tail: string)
    requires ValidId(id) && |value| <= 99
    ensures var s := Field(id, value) + tail;
      && |s| >= 4 + |value|
      && s[..2] == id
      && s[2..4] == Field(id, value)[2..4]
      && s[4..4 + |value|] == value
      && s[4 + |value|..] == tail
  {
    var f := Field(id, value);
    AppendSlice(f, tail, 0, 2);
    AppendSlice(f, tail, 2, 4);
    AppendSlice(f, tail, 4, |f|);
    assert (f + tail)[|f|..] == tail;
  }

  /** Parsing peels off one data object whose ID and length are well formed. */
  lemma ParseHead(s: string)
    requires |s| >= 4 && ValidId(s[..2]) && AllDigits(s[2..4])
    requires 4 + DigitsValue(s[2..4]) <= |s|
    ensures var n := DigitsValue(s[2..4]);
      Parse(s) == match Parse(s[4 + n..])
        case None => None
        case Some(rest) => Some([DataObject(s[..2], s[4..4 + n])] + rest)
  {
  }

  /** A non-empty text that parses starts with a well-formed data object. */
  lemma ParsedHead(s: string)
    requires |s| > 0 && Parse(s).Some?
    ensures |s| >= 4 && ValidId(s[..2]) && AllDigits(s[2..4])
    ensures 4 + DigitsValue(s[2..4]) <= |s|
  {
  }

  /** A well-formed head is the field its ID and value would build. */
  lemma HeadIsField(s: string)
    requires |s| >= 4 && ValidId(s[..2]) && AllDigits(s[2..4])
    requires 4 + DigitsValue(s[2..4]) <= |s|
    ensures var n := DigitsValue(s[2..4]);
      n <= 99 && s == Field(s[..2], s[4..4 + n]) + s[4 + n..]
  {
    var id, len := s[..2], s[2..4];
    var n := DigitsValue(len);
    var value, rest := s[4..4 + n], s[4 + n..];
    assert n <= 99 by {
      TwoDigitsValue(len);
    }
    FieldSpelled(id, value, len);
    Rejoin(s, n);
  }

  /** A field is its ID, the two digits of its length and its value. */
  lemma FieldSpelled(id: string, value: string, len: string)
    requires ValidId(id) && |value| <= 99
    requires |len| == 2 && AllDigits(len) && DigitsValue(len) == |value|
    ensures Field(id, value) == id + len + value
  {
    var f := Field(id, value);
    DigitsOfTwo(f[2..4], len);
    Rejoin(f, |value|);
  }

  /** A text cut after its ID, its length and `n` characters of value. */
  lemma Rejoin(s: string, n: nat)
    requires 4 + n <= |s|
    ensures s == s[..2] + s[2..4] + s[4..4 + n] + s[4 + n..]
  {
  }

  /** Serialized data objects read back as themselves. */
  lemma {:induction false} ParseSerialize(objs: seq<DataObject>)
    requires AllEncodable(objs)
    ensures Parse(Serialize(objs)) == Some(objs)
    decreases |objs|
  {
    if |objs| > 0 {
      var o := objs[0];
      var tail := Serialize(objs[1..]);
      var s := Serialize(objs);
      assert s == Field(o.id, o.value) + tail;
      FieldThenTail(o.id, o.value, tail);
      ParseHead(s);
      ParseSerialize(objs[1..]);
      assert [DataObject(s[..2], s[4..4 + |o.value|])] + objs[1..] == objs;
    }
  }

  /** Whatever reads as data objects is exactly their serialization, and
      every one of them is encodable. */
  lemma {:induction false} SerializeParse(s: string)
    requires Parse(s).Some?
    ensures AllEncodable(Parse(s).value)
    ensures Serialize(Parse(s).value) == s
    decreases |s|
  {
    if |s| > 0 {
      ParsedHead(s);
      HeadIsField(s);
      ParseHead(s);
      var n := DigitsValue(s[2..4]);
      var head, rest := DataObject(s[..2], s[4..4 + n]), s[4 + n..];
      SerializeParse(rest);
      var objs := Parse(s).value;
      assert objs == [head] + Parse(rest).value;
      assert objs[0] == head && objs[1..] == Parse(rest).value;
    }
  }
}
